=== FILE: README.md ===
# Hackathon team workspace — a Dafny model of its core behaviour

The system is a hackathon team workspace with four parts:

- **Next.js front end.** Pages for tasks, team setup, team, files, chat and the dashboard. They share one React context that holds the tasks, the team members, login state and two coupled times: the project deadline and the hackathon end time.
- **Express/Mongoose back end.** Handles users, teams and team tasks, and authenticates requests with JSON web tokens.
- **Flask chat summariser.** Joins a chat log into one text and passes at most 3000 characters of it to a summarisation model.
- **Pitch helpers.** Two small Python text templates.

This project models the deterministic core of each part as pure Dafny functions over immutable datatypes, and proves what that code promises.

| file | module | what it models |
|---|---|---|
| `basics.dfy` | `Basics` | optional values, first-match lookup and replace-by-key over sequences, the three task states and their spellings, millisecond time spans |
| `text.dfy` | `Text` | whitespace stripping with Python's and JavaScript's whitespace sets, ASCII case mapping, prefix/suffix tests, `join`/`split`, decimal rendering |
| `summarizer.dfy` | `Summarizer` | `summarize_chat` validation, concatenation, truncation and the single model call; the `/chat` log |
| `pitch.dfy` | `Pitch` | `generate_pitch_from_points` and `get_next_steps` |
| `app_context.dfy` | `AppContext` | the React context: initial state, timer restore, login/logout, task and member updates, deadline coupling, status filters |
| `dashboard.dfy` | `Dashboard` | task statistics, completion percentage, countdown split, progress bar, "time remaining" text, upcoming tasks, team initial |
| `tasks_page.dfy` | `TasksPage` | the task board columns and its two dialogs |
| `team_setup.dfy` | `TeamSetup` | the member rows of the setup form, submit and the invite code |
| `team_page.dfy` | `TeamPage` | editing a member by id |
| `files_page.dfy` | `FilesPage` | the add-link dialog |
| `chat_page.dfy` | `ChatPage` | sending a chat message |
| `schema.dfy` | `Schema` | the three Mongoose schemas as records and validity predicates, lookups, fresh ids |
| `task_controller.dfy` | `TaskController` | task create/list/update/delete with team authorisation |
| `team_controller.dfy` | `TeamController` | team create/join/get |
| `auth_controller.dfy` | `AuthController` | register, login, profile |
| `auth_middleware.dfy` | `AuthMiddleware` | `protect`: header classification and outcome |

## How external things are represented

- **Database.** Each MongoDB collection is a sequence in insertion order, and a lookup returns the first match. Ids are natural numbers, and a fresh id is larger than every id in use.
- **Passed in as parameters:**
  - `hash` stands for `bcrypt.hash`, with the salt abstracted away. `bcrypt.compare(p, h)` is `hash(p) == h`.
  - `verify` stands for `jwt.verify`, giving the user id or nothing. A token records its subject and lifetime; signing is not modelled.
  - The summarisation model maps the exact call (text and generation options) to generated text or a raised exception's message.
  - `repr` is Python's rendering of lists and dicts.
  - Also: the clock (`now`, `clock`), `Math.random().toString(36)` (`random36`), date parsing (`parseDate`), and the explanation text of a thrown JavaScript error (`explain`).
- **Handler replies** are a datatype:
  - the status with a message, a task, a task list, a team or a user profile;
  - `NoReply` when an error escapes a handler that has no `try`.
- **Front-end handlers** map the page's own state and the shared context state to their successors.

## Model

| member | source | states |
|---|---|---|
| Basics.ParseStatus | backend/models/Task.js:18-22 | a string is a status exactly when it is one of the three enum spellings, and the parsed status spells back to the string |
| Basics.StatusRoundTrip | backend/models/Task.js:18-22 | parsing the spelling of any status gives that status back |
| Basics.FindFirst | backend/controllers/authController.js:17 | a lookup finds a stored document exactly when one has the key, and what it finds is stored and has that key |
| Basics.FindFirstUnique | backend/middleware/authMiddleware.js:17 | with unique keys, looking up any stored document's key finds that document |
| Basics.FindFirstAppended | backend/controllers/authController.js:17-31 | a document stored under a key that no document had is what that key finds next |
| Basics.ReplaceByKey | backend/controllers/teamController.js:40-41 | saving a changed document replaces exactly the documents with its key, and keeps length and order |
| Text.Strip | ai-summarizer/app.py:28 | the result is the input minus its leading and trailing whitespace: both removed parts are whitespace, and the result neither starts nor ends with whitespace. Whitespace is Python's set for `str.strip()`, which includes U+001C..U+001F, and JavaScript's set for `trim()` |
| Text.DialectsDiffer | ai-summarizer/app.py:28-30 | everything `trim()` removes `str.strip()` also removes; the two differ exactly on U+001C..U+001F, and such a character alone strips to nothing in Python but survives `trim()` |
| Text.StripIdempotent | ai-summarizer/app.py:28-30 | stripping twice is stripping once |
| Text.StripEmptyIff | ai-summarizer/app.py:30 | in either dialect, the stripped text is empty exactly when the text is all whitespace of that dialect; for Python this includes U+001C..U+001F |
| Text.JoinSplit | backend/middleware/authMiddleware.js:11 | joining the fields of a split with the separator rebuilds the string, so splitting loses nothing |
| Text.SplitJoin | backend/middleware/authMiddleware.js:11 | splitting a join of fields that do not contain the separator gives the fields back |
| Text.JoinLength | ai-pitch/generate_pitch.py:7 | a join is as long as its parts plus one separator between each adjacent pair |
| Text.DecimalRoundTrip | context/AppContext.tsx:239 | the decimal rendering of a number used in generated ids reads back as that number |
| Text.NumeralPrefixUnique | frontend/pages/dashboard.tsx:86 | a rendered number followed by a non-digit can be read off only one way: the number and the rest of the text are determined |
| Summarizer.SummarizeChat | ai-summarizer/app.py:16-41 | a body that does not parse gives 400 "Invalid JSON format"; a 400 never calls the model; the model is called at most once, with max 100, min 20, no sampling and at most 3000 characters; a success returns the model's text; any dict body whose "chat" is a list goes to the list handling, whatever other keys it has; a truthy list or string body that contains "chat", or a truthy body of another kind, gives 500 because `data['chat']` or `in` raises outside the `try` |
| Summarizer.SummarizeList | ai-summarizer/app.py:26-41 | no content gives 400 with no call, where blank means Python whitespace and so includes U+001C..U+001F; otherwise exactly one call on the truncated combined text, and a raised error becomes 500 "Server Error: " plus its message |
| Summarizer.InvalidInputRejected | ai-summarizer/app.py:23-24 | a falsy body, a dict without "chat" and a non-list "chat" all give 400 "Invalid input" and no model call |
| Summarizer.ModelInputIsPrefix | ai-summarizer/app.py:33-36 | the model's input is a prefix of the combined text, of length min(length, 3000) |
| Summarizer.SafeInput | ai-summarizer/app.py:33-34 | truncation keeps a prefix of the text, of length at most 3000 |
| Summarizer.NonDictSkipped | ai-summarizer/app.py:28 | appending an entry that is not a dict changes neither the dict entries nor the combined text |
| Summarizer.MissingMessageAddsSeparator | ai-summarizer/app.py:28 | a dict without "message" after at least one dict adds exactly one separating space |
| Summarizer.DictEntriesSnoc | ai-summarizer/app.py:28 | the entries that take part are exactly the dict entries of the chat list, in order |
| Summarizer.NoContentIff | ai-summarizer/app.py:28-31 | the "no meaningful messages" case happens exactly when every piece is empty after Python's `strip()`, which also removes U+001C..U+001F; this includes an empty chat list |
| Summarizer.JoinAllSpace | ai-summarizer/app.py:28-30 | a space-join is all Python whitespace exactly when every part is |
| Summarizer.AddChat | ai-summarizer/app.py:50-56 | a JSON object body appends exactly one entry, with author default "Unknown" and message default "", and keeps earlier entries; any other body leaves the log as it was |
| Summarizer.GetAfterPosts | ai-summarizer/app.py:44-56 | after any sequence of posts, the listed log is the earlier log followed by the accepted entries in posting order |
| Summarizer.PostThenGet | ai-summarizer/app.py:46-56 | a message posted without an author is listed last, with author "Unknown" |
| Pitch.GeneratePitch | ai-pitch/generate_pitch.py:6-11 | the pitch starts with the intro and a blank line, ends with a full stop, a blank line and the closing, and its length is the sum of the three parts plus the five layout characters |
| Pitch.PitchBodyRecovered | ai-pitch/generate_pitch.py:7-10 | the middle of a pitch is exactly the points joined with ". ", untrimmed |
| Pitch.EmptyPitch | ai-pitch/generate_pitch.py:7-10 | no points give the intro, a blank line, a lone full stop, a blank line and the closing |
| Pitch.PitchLength | ai-pitch/generate_pitch.py:7-10 | for n >= 1 points the length is intro + closing + sum of point lengths + 2(n-1) + 5 |
| Pitch.PitchAppendPoint | ai-pitch/generate_pitch.py:7 | one more point extends the body by ". " and that point, in order |
| Pitch.NextSteps | ai-pitch/ai_assistant.py:6-15 | the output is the header quoting the idea, followed by a plan that is the same for every idea |
| Pitch.IdeaQuotedVerbatim | ai-pitch/ai_assistant.py:6 | the idea appears unescaped right after `Based on your idea: "` |
| Pitch.NextStepsInjective | ai-pitch/ai_assistant.py:1-15 | different ideas give different outputs, and the step list never depends on the idea |
| AppContext.Initial | context/AppContext.tsx:93-138 | first render: signed out, four "To Do" seed tasks, a deadline one week ahead, no hackathon end time |
| AppContext.RestoreTimer | context/AppContext.tsx:170-187 | a stored deadline drives both times; otherwise a stored end time is reused; otherwise the end is 48 hours ahead; nothing else changes |
| AppContext.Login | context/AppContext.tsx:196-215 | login sets an authenticated "Team Member" user with the given name, a "user-" id and an avatar ending in the upper-cased initial; nothing else changes |
| AppContext.Logout | context/AppContext.tsx:217-225 | logout clears authentication and the current user; nothing else changes |
| AppContext.LogoutUndoesLogin | context/AppContext.tsx:196-225 | logging in and then out is the same as logging out |
| AppContext.AddTask | context/AppContext.tsx:228-230 | the task is appended at the end and all earlier tasks keep their values and order |
| AppContext.Apply | context/AppContext.tsx:234 | each field named in the patch is overwritten and every other field kept |
| AppContext.UpdateTask | context/AppContext.tsx:232-236 | tasks with the id get the patch, others are untouched, and length and order are kept |
| AppContext.UpdateUnknownIdNoChange | context/AppContext.tsx:232-236 | an id no task has leaves the state unchanged |
| AppContext.UpdateTaskIdempotent | context/AppContext.tsx:232-236 | applying the same update twice is applying it once |
| AppContext.AddTeamMember | context/AppContext.tsx:238-241 | one member with the given name, role and avatar and a "member-" id is appended; existing members are unchanged |
| AppContext.MemberIdsFollowClock | context/AppContext.tsx:239 | two members added in a row get the same id exactly when they are added at the same millisecond |
| AppContext.UpdateDeadline | context/AppContext.tsx:244-253 | a date sets both deadline and end time; null clears the deadline and leaves the end time |
| AppContext.ResetHackathonTimer | context/AppContext.tsx:255-263 | both times become now + 48 h |
| AppContext.TimerOperationsKeepCoupling | context/AppContext.tsx:244-263 | once a deadline is set, the end time equals it, and both timer operations keep that so |
| AppContext.WithStatusExact | pages/tasks.tsx:42-44 | a status filter holds exactly the tasks of that status |
| AppContext.FilterSplit | pages/dashboard.tsx:669-673 | the tasks with a status and the tasks without it together make up the list as a multiset |
| AppContext.ThreeColumnsCover | pages/tasks.tsx:42-44 | the three status filters together hold the whole list as a multiset |
| AppContext.WithStatusSnoc | pages/tasks.tsx:42-44 | filters preserve order: appending a task extends only its own status's filter |
| AppContext.WithoutStatusSnoc | frontend/pages/dashboard.tsx:308 | the complement filter preserves order: an appended task extends it at the end exactly when its status differs |
| Dashboard.TaskStats | pages/dashboard.tsx:42-60 | the total is the task count; the three status counts add up to it; completion is 0 without tasks and within [0, 100]; chart slice i counts the status named by label i |
| Dashboard.ChartLabelsNameStatuses | pages/dashboard.tsx:100 | the chart labels spell the statuses that the chart data counts, in the same order |
| Dashboard.RoundedPercent | frontend/pages/dashboard.tsx:41-42 | the percentage is the integer nearest to 100 times done/total, with halves rounded up, and at most 100 |
| Dashboard.CompletionExtremes | pages/dashboard.tsx:49-50 | nothing done gives 0% and everything done gives 100% |
| Dashboard.UpcomingTasks | frontend/pages/dashboard.tsx:305-309 | upcoming tasks are exactly the tasks that are not done, and number total minus completed; the order is stated by `UpcomingKeepsOrder` |
| Dashboard.UpcomingKeepsOrder | frontend/pages/dashboard.tsx:305-309 | no tasks give no upcoming tasks, and a task appended to the list is listed last among the upcoming ones exactly when it is not done, so the list's order is kept |
| Dashboard.TeamInitial | pages/dashboard.tsx:395 | one character: the first of the team name, or "T" when the name is empty |
| Dashboard.CountdownOf | pages/dashboard.tsx:211-228 | a negative distance gives no countdown; otherwise days = distance div one day, hours < 24, minutes < 60, seconds < 60 |
| Dashboard.CountdownRecomposes | pages/dashboard.tsx:220-225 | the fields recompose to the distance with its sub-second part dropped |
| Dashboard.CountdownUnique | pages/dashboard.tsx:220-225 | every normalised countdown is the one shown for each distance within the same second |
| Dashboard.HackathonProgress | pages/dashboard.tsx:238-251 | 0 without an end time or countdown; always within [0, 100] |
| Dashboard.ProgressEnds | pages/dashboard.tsx:238-251 | the bar is full exactly when less than a second is left, and empty exactly when 48 hours or more are left |
| Dashboard.ProgressMonotone | pages/dashboard.tsx:238-251 | less time left never shows less progress |
| Dashboard.PhraseInjective | frontend/pages/dashboard.tsx:86 | the remaining-time text determines its days, hours and minutes |
| Dashboard.RemainingTextRecomposes | frontend/pages/dashboard.tsx:80-86 | any days, hours and minutes that the text can be read as are the countdown's figures for the same distance: hours < 24, minutes < 60, and together they make the distance rounded down to the whole minute |
| Dashboard.TimeRemainingAsWritten | pages/dashboard.tsx:173-205 | no deadline gives "Deadline not set"; a non-negative distance gives the remaining-time text; a past deadline leaves no text |
| Dashboard.ExpiredNeverShown | pages/dashboard.tsx:184-198 | once the deadline has passed, "Expired" is never the value shown |
| Dashboard.TimeRemaining | pages/dashboard.tsx:173-205 | corrected: a past deadline shows "Expired"; every other case agrees with the code as written |
| TasksPage.ColumnsPartition | pages/tasks.tsx:42-44 | every task appears in the column of its own status and in no other, and the columns hold the list as a multiset |
| TasksPage.OpenAddTaskModal | pages/tasks.tsx:46-50 | the title is cleared and the assignee is the first member's name, or "" without members; the dialog opens and nothing else changes |
| TasksPage.CloseAddTaskModal | pages/tasks.tsx:52-54 | only the dialog flag changes |
| TasksPage.HandleAddTask | pages/tasks.tsx:56-68 | an empty title changes nothing; otherwise one "To Do" task with an empty description and the chosen assignee is appended and the dialog closes |
| TasksPage.AddedTaskJoinsToDo | pages/tasks.tsx:42-68 | an added task extends the "To Do" column at its end, and the other columns stay as they were |
| TasksPage.OpenUpdateTaskModal | pages/tasks.tsx:70-80 | an unknown id changes nothing; a known one is selected and its status preloaded |
| TasksPage.CloseUpdateTaskModal | pages/tasks.tsx:82-85 | the dialog closes and the selection is cleared; nothing else changes |
| TasksPage.HandleUpdateTaskStatus | pages/tasks.tsx:87-91 | with no selection nothing happens; otherwise only the selected task's status changes and the selection is cleared |
| TasksPage.ConfirmUnchangedStatusIsNoOp | pages/tasks.tsx:70-91 | opening the status dialog and confirming it unchanged leaves the task list as it was |
| TasksPage.StatusChangeMovesColumn | pages/tasks.tsx:42-44 | after a status change, the selected task shows in the column of the new status |
| TeamSetup.AddMemberInput | pages/team-setup.tsx:44-46 | exactly one blank row is appended; the rest of the form is kept |
| TeamSetup.UpdateMember | pages/team-setup.tsx:49-57 | an index out of range fails; otherwise only the chosen field of that row changes and the row count is kept |
| TeamSetup.UpdateMemberLastWins | pages/team-setup.tsx:49-57 | two edits of the same field keep the last; writing back a field's current value changes nothing |
| TeamSetup.CompleteRowsExact | pages/team-setup.tsx:77-78 | the rows that become members are exactly those with both a name and a role |
| TeamSetup.CompleteRowsSnoc | pages/team-setup.tsx:77-89 | the complete rows follow the form's order and multiplicity: a row added at the end is kept, last, exactly when it is complete |
| TeamSetup.Avatar | pages/team-setup.tsx:80-81 | the avatar URL ends with the upper-cased first letter of the name |
| TeamSetup.NewMembers | pages/team-setup.tsx:77-89 | one member per complete row, in row order, with that row's name, role and avatar |
| TeamSetup.AddRowsAppends | pages/team-setup.tsx:77-89 | the member loop appends those members after the existing ones and changes nothing else |
| TeamSetup.InviteCode | pages/team-setup.tsx:92-95 | the code starts with "HACK-" and is 5 to 9 characters long |
| TeamSetup.InviteCodeShape | pages/team-setup.tsx:92-95 | every character after "HACK-" is a digit or an upper-case letter |
| TeamSetup.HandleSubmit | pages/team-setup.tsx:60-104 | name and bio are stored; the deadline, and with it the end time, changes only when the deadline field is non-empty; tasks and login are kept; the form gets the invite code and success |
| TeamSetup.SubmitAddsCompleteRows | pages/team-setup.tsx:77-89 | submitting appends one member per complete row, in row order, after the existing members |
| TeamSetup.InitialFormAddsNoMembers | pages/team-setup.tsx:21 | the untouched form, with one blank row, adds no member |
| TeamPage.OpenEditMemberModal | pages/team.tsx:62-65 | the member is selected and the dialog opens; the list is kept |
| TeamPage.CloseEditMemberModal | pages/team.tsx:67-70 | the dialog closes and the selection is cleared; the list is kept |
| TeamPage.ReplaceById | pages/team.tsx:74-78 | members with the edited id are replaced, all others kept, and length and order are preserved |
| TeamPage.UpdateMember | pages/team.tsx:72-80 | with no selection nothing happens; otherwise the edited member replaces the one with its id, the dialog closes and the selection clears |
| TeamPage.ReplaceByIdLaws | pages/team.tsx:74-78 | replacing twice is replacing once; an id no member has changes nothing |
| TeamPage.SaveUneditedIsNoOp | pages/team.tsx:62-80 | opening a member's dialog and saving it unedited keeps the list |
| FilesPage.OpenAddLinkModal | pages/files.tsx:50-55 | title, URL and category are cleared and the dialog opens |
| FilesPage.CloseAddLinkModal | pages/files.tsx:57-59 | only the dialog flag changes |
| FilesPage.AddLink | pages/files.tsx:61-73 | an empty title or URL changes nothing; otherwise one link is appended with the entered category, or "General" when it is empty, and the dialog closes |
| FilesPage.FreshDialogAddsNothing | pages/files.tsx:50-73 | submitting a freshly opened dialog adds nothing, and an added link never has an empty category |
| ChatPage.HandleSendMessage | pages/chat.tsx:45-67 | blank input is rejected; otherwise the untrimmed text is appended as the current user's "Dia" message and the input is cleared |
| ChatPage.SendTwicePostsOnce | pages/chat.tsx:45-67 | a second send right after a successful one posts nothing |
| Schema.TaskTitle | backend/models/Task.js:9-13 | a stored title is the input with surrounding whitespace removed |
| Schema.NormalEmail | backend/models/User.js:9-15 | a stored email is lower-case and trimmed, and no longer than its input |
| Schema.NormalEmailFixes | backend/models/User.js:9-15 | a lower-case, trimmed email is stored as it is, so normalising twice is normalising once |
| Schema.PreSave | backend/models/User.js:35-40 | the password is replaced by its hash exactly when it was modified |
| Schema.ToJson | backend/models/User.js:43-47 | every field but the password is kept |
| Schema.ToJsonForgetsOnlyPassword | backend/models/User.js:43-47 | two users serialise alike exactly when they differ at most in the password |
| Schema.SetTeamIdKeepsUsersValid | backend/controllers/teamController.js:19 | setting a user's team keeps every user valid and every id and email unique |
| TaskController.CreateTask | backend/controllers/taskController.js:8-36 | no team gives 400, then a missing title gives 400; a created task has the user's team and id as creator, a trimmed title, status "To Do", the description or "" and is appended; a blank title fails validation with 500 |
| TaskController.CreateTaskKeepsDbValid | backend/controllers/taskController.js:21-29 | creating a task keeps the database valid |
| TaskController.GetTasks | backend/controllers/taskController.js:38-50 | no team gives 400; otherwise exactly the tasks of the user's team |
| TaskController.TasksOfTeam | backend/controllers/taskController.js:43 | the listed tasks are exactly the stored tasks of the team |
| TaskController.CreatedTaskIsListed | backend/controllers/taskController.js:8-50 | a created task is listed last among its team's tasks |
| TaskController.Merge | backend/controllers/taskController.js:67-72 | a field is replaced only by a truthy value; for each field, including the title, a falsy sent value keeps the stored value, so an empty string cannot clear it; an invalid status or a blank title fails validation |
| TaskController.EmptyUpdateKeepsTask | backend/controllers/taskController.js:67-70 | an update with only empty or absent fields leaves a valid task as it was |
| TaskController.UpdateTask | backend/controllers/taskController.js:52-79 | an unknown id gives 404; a user without a team gives 500; another team gives 401; otherwise the merged task replaces the stored one, and every failure leaves the database unchanged |
| TaskController.UpdateTaskKeepsDbValid | backend/controllers/taskController.js:52-79 | an update keeps the database valid |
| TaskController.DeleteTask | backend/controllers/taskController.js:81-102 | 404, 500 and 401 as in update; otherwise the task with that id is removed and 200 is returned |
| TaskController.RemoveTaskExact | backend/controllers/taskController.js:94 | removal keeps exactly the tasks with another id |
| TaskController.RemoveTaskRemovesOne | backend/controllers/taskController.js:94 | with unique ids, deleting a stored task removes that one task and keeps the order of the rest |
| TaskController.NoIdNoRemoval | backend/controllers/taskController.js:94 | an id no task has removes nothing |
| TaskController.DeleteTaskKeepsDbValid | backend/controllers/taskController.js:81-102 | a deletion keeps the database valid |
| TeamController.CreateTeam | backend/controllers/teamController.js:6-22 | no name gives 400 and no team; otherwise a team whose one member is the creator as leader is stored, and the creator's team is set to it |
| TeamController.CreateTeamKeepsDbValid | backend/controllers/teamController.js:6-22 | creating a team keeps the database valid |
| TeamController.JoinTeam | backend/controllers/teamController.js:26-46 | an unknown code gives 404; an existing member gives 400 with the team unchanged; otherwise exactly one "member" is appended and the user's team is set |
| TeamController.JoinTeamKeepsDbValid | backend/controllers/teamController.js:26-46 | joining keeps the database valid; no team lists a user twice |
| TeamController.JoinLeavesOldMembership | backend/controllers/teamController.js:40-43 | joining a second team leaves the user listed in the first while their team id names the second |
| TeamController.GetMyTeam | backend/controllers/teamController.js:50-65 | no team or a missing team gives 404; otherwise the team |
| TeamController.JoinThenGetMyTeam | backend/controllers/teamController.js:26-65 | after joining, the own-team route returns the joined team |
| AuthController.NewUser | backend/models/User.js:5-19 | creating a user fails validation exactly when name, email or password is empty |
| AuthController.RegisterUser | backend/controllers/authController.js:9-54 | missing email or password gives 500; an existing normalised email gives 400 with no user created; registration succeeds exactly when both fields are present, the email is new and the name, email and hashed password pass the `required` rules; failing those rules gives 500 with the validation error; a success stores the user with the password hashed twice and returns 201 with id, name, email and a 1-day token |
| AuthController.RegisterThenLoginAsWritten | backend/controllers/authController.js:23-31 | after registering, logging in with the same credentials succeeds exactly when hashing the hash gives the hash back |
| AuthController.RegisterThenLoginRejected | backend/controllers/authController.js:79 | for a sample hash, every account that registers successfully is refused at login with its own credentials |
| AuthController.RegisterUserHashedOnce | backend/controllers/authController.js:9-54 | corrected: as registration, with the same success condition and error replies, but the trimmed password itself is validated and the stored password is hashed once |
| AuthController.RegisterThenLoginHashedOnce | backend/controllers/authController.js:60-99 | corrected: after registering, login with the same credentials returns 200 with the same profile and a 30-day token |
| AuthController.RegisterKeepsDbValid | backend/controllers/authController.js:17-31 | registration, as written or corrected, keeps the database valid |
| AuthController.LoginUser | backend/controllers/authController.js:60-104 | missing fields give 500; success exactly when the normalised email is stored and the trimmed password's hash matches, giving 200 with the profile and a 30-day token; an unknown email and a wrong password give the same 401 |
| AuthController.LoginNormalises | backend/controllers/authController.js:64-65 | emails equal after trimming and lower-casing, and passwords equal after trimming, log in alike |
| AuthController.GetUserProfile | backend/controllers/authController.js:110-120 | a present user gives their id, name and email; none gives 404 |
| AuthMiddleware.TokenOf | backend/middleware/authMiddleware.js:11 | a second space-separated field exists exactly when the header contains a space, and the token is that field |
| AuthMiddleware.Protect | backend/middleware/authMiddleware.js:4-35 | no header, or one not starting with "Bearer", gives 401 "no token"; the request proceeds exactly when the token verifies and its user is stored, and then the user is that stored user without a password; a Bearer header gives 404 exactly when its token verifies to an id no stored user has, and 401 "token invalid" otherwise |
| AuthMiddleware.BearerTokenIsVerified | backend/middleware/authMiddleware.js:11-28 | for "Bearer t": a failed verification gives 401, an unknown user gives 404, otherwise the found user proceeds |
| AuthMiddleware.BareSchemeIsInvalid | backend/middleware/authMiddleware.js:11-28 | the header "Bearer" alone has no token and gives 401 "token invalid" |
| AuthMiddleware.LoginTokenAuthenticates | backend/middleware/authMiddleware.js:14-24 | a token that verifies to the subject of a login reply lets the request proceed as that user, and the profile route then returns the profile the login returned |

## Left out

- **Browser and UI machinery.** React rendering, Chart.js, intervals and timeouts, localStorage, router redirects, alerts and clipboard are not modelled. Only the state transitions of the handlers are.
- **The hard-coded mock summary** in pages/chat.tsx is not modelled, because it does not depend on any input.
- **HTTP, Flask/Express routing and MongoDB I/O.** These include the file routes, Gemini calls and `populate`. Collections are sequences, and `populate` is not modelled because it only changes how references are displayed.
- **External primitives.** bcrypt, jsonwebtoken, nanoid, `Date.now`, `new Date(...)`, `Math.random` and the BART model are parameters. Hash salts, token signing and token expiry are not modelled.
- **Text handling.** Strings are sequences of characters. Whitespace and case mapping cover ASCII only. Within ASCII, Python's `str.strip()` also removes U+001C..U+001F and JavaScript's `trim()` does not; the model keeps both sets. Non-ASCII whitespace (U+00A0, U+0085, U+FEFF, U+2028 and others), Unicode case mapping and normalisation are not modelled.
- **Floating point.** `Math.round` and the progress division are computed exactly. Ties round up, and the IEEE tie behaviour is not reproduced. Python floats in the chat JSON are not modelled.
- **Malformed ObjectIds and `undefined` filters.** ObjectIds are natural numbers, so a malformed id cannot be expressed. Body fields are strings or absent; JSON bodies with non-string field values are not modelled.
- **Concurrency.** The module-global `chat_history` and the database are single sequential stores.
- **Invalid `Date` values.** A deadline that parses to an invalid date is not modelled; dates are whole milliseconds.
- Dashboard.TeamInitial: JavaScript strings are UTF-16 code units, and `charAt(0)` returns the first code unit. The model's `char` is a whole Unicode scalar value, so for a name beginning with a character outside the Basic Multilingual Plane, such as "😀 Crew", the source shows the lone high surrogate "\uD83D" while the model gives "😀".
- TeamSetup.Avatar: the same code-unit difference. `Text.UpperInitial` takes the whole first character where `charAt(0)` takes the first UTF-16 code unit.
- AppContext.Login: the same code-unit difference in the avatar's initial.
- AuthController.RegisterUser: the 400 "Invalid user data" branch is not modelled, because `User.create` either returns a document or throws, so that branch is unreachable.
- AuthController.RegisterKeepsDbValid: assumes the hash of any password is non-empty, which bcrypt guarantees but the abstract `hash` parameter does not.
- TeamSetup.SubmitAddsCompleteRows: states the name, role and avatar of each added member but not its id. The id is "member-" followed by the clock value; that part is stated by `AppContext.AddTeamMember`.
- TeamController.CreateTeam: a generated invite code that collides with a stored one is modelled as the unique index rejecting the insert. The request then gets no reply. Generating the code is not modelled.
- Dashboard.HackathonProgress: the result is an exact real number and not an IEEE double.
- Summarizer.SummarizeChat: `str()` of a list or dict is the abstract `repr` parameter, and exceptions raised inside `repr` are not modelled.

## Findings

| source | as written | input that shows it | evidently intended | confidence | as-written member | corrected member |
|---|---|---|---|---|---|---|
| backend/controllers/authController.js:23-31 | `registerUser` hashes the password, and `User.create` runs the pre-save hook (backend/models/User.js:35-40), which hashes it again. The stored value is H(H(p)), while login at line 79 compares p against it as if it were H(p). | Any successful registration followed by a login with the same email and password. With a hash where H(H(p)) differs from H(p), for example `"$" + p` or bcrypt itself, the login gets 401 "Invalid email or password". | Store H(p), hashed once, so the account can log in with the password it registered with. | not executed; high | AuthController.RegisterThenLoginAsWritten | AuthController.RegisterThenLoginHashedOnce |
| pages/dashboard.tsx:184-198 | When the deadline has passed, `calculateTimeRemaining` sets "Expired" and then returns `undefined`. The caller immediately stores that return value, so the "Expired" text is overwritten. The same code is at frontend/pages/dashboard.tsx:75-89. | Any deadline earlier than the current time. | Show "Expired" once the deadline has passed. | not executed; high | Dashboard.TimeRemainingAsWritten | Dashboard.TimeRemaining |

=== FILE: app_context.dfy ===
/** The client-side application state (context/AppContext.tsx): authentication,
    team members, the task list and the two coupled times, `deadline` and
    `hackathonEndTime`. Each setter of the React provider is a pure transition
    `State -> State`; `Date.now()` is a parameter `now` in milliseconds, and the
    localStorage mirror is not modelled. */
module AppContext {

  import opened Basics
  import opened Text

  /** A task as the front end holds it. */
  datatype Task = Task(id: string, title: string, description: string, status: Status, assignee: string, dueDate: Option<int>)

  /** `Partial<Task>`: `Some` for each field the update names. */
  datatype TaskPatch = TaskPatch(
    id: Option<string>,
    title: Option<string>,
    description: Option<string>,
    status: Option<Status>,
    assignee: Option<string>,
    dueDate: Option<Option<int>>)

  /** A team member (also the shape of `currentUser`). */
  datatype Member = Member(id: string, name: string, role: string, avatar: string)

  datatype State = State(
    isAuthenticated: bool,
    currentUser: Option<Member>,
    teamName: string,
    teamBio: string,
    teamMembers: seq<Member>,
    tasks: seq<Task>,
    deadline: Option<int>,
    hackathonEndTime: Option<int>)

  /** Length of a hackathon: 48 hours. */
  const HackathonMs: nat := 48 * HourMs

  const SeedTasks: seq<Task> := [
    Task("1", "Design user interface", "Create wireframes and design system", ToDo, "You", None),
    Task("2", "Set up database", "Configure MongoDB and create schemas", ToDo, "You", None),
    Task("3", "Implement authentication", "Add user login and registration", ToDo, "You", None),
    Task("4", "Create landing page", "Design and implement the landing page", ToDo, "You", None)
  ]

  /** The provider's first render at time `now`: signed out, four seed tasks, a
      deadline one week ahead and no hackathon end time yet. */
  function Initial(now: int): (st: State)
    ensures !st.isAuthenticated && st.currentUser.None?
    ensures st.deadline == Some(now + 7 * DayMs) && st.hackathonEndTime.None?
    ensures |st.tasks| == 4 && forall i :: 0 <= i < |st.tasks| ==> st.tasks[i].status == ToDo
  {
    State(false, None, "My Team", "Our team is participating in a hackathon!", [], SeedTasks, Some(now + 7 * DayMs), None)
  }

  /** The mount effect that restores the timer: a stored project deadline drives
      both times; otherwise a stored end time is reused; otherwise the end time
      is 48 hours from `now`. Stored values are given already parsed. */
  function RestoreTimer(st: State, storedDeadline: Option<int>, storedEndTime: Option<int>, now: int): (r: State)
    ensures r.hackathonEndTime.Some?
    ensures storedDeadline.Some? ==> r.deadline == storedDeadline && r.hackathonEndTime == storedDeadline
    ensures storedDeadline.None? ==> r.deadline == st.deadline
    ensures storedDeadline.None? && storedEndTime.Some? ==> r.hackathonEndTime == storedEndTime
    ensures storedDeadline.None? && storedEndTime.None? ==> r.hackathonEndTime == Some(now + HackathonMs)
    ensures r.(deadline := st.deadline, hackathonEndTime := st.hackathonEndTime) == st
  {
    match storedDeadline
    case Some(d) => st.(deadline := Some(d), hackathonEndTime := Some(d))
    case None =>
      match storedEndTime
      case Some(e) => st.(hackathonEndTime := Some(e))
      case None => st.(hackathonEndTime := Some(now + HackathonMs))
  }

  // ---------------------------------------------------------------------
  // Authentication
  // ---------------------------------------------------------------------

  const AvatarBase200: string := "https://placehold.co/200x200/1e293b/38bdf8?text="

  /** `login(username, password)`: the password is ignored; the user is signed
      in as a "Team Member" whose avatar shows the upper-cased initial. */
  function Login(st: State, username: string, password: string, now: nat): (r: State)
    ensures r.isAuthenticated
    ensures r.currentUser.Some? && r.currentUser.value.name == username && r.currentUser.value.role == "Team Member"
    ensures StartsWith(r.currentUser.value.id, "user-")
    ensures EndsWith(r.currentUser.value.avatar, UpperInitial(username))
    ensures r.(isAuthenticated := st.isAuthenticated, currentUser := st.currentUser) == st
  {
    var user := Member("user-" + NatToString(now), username, "Team Member", AvatarBase200 + UpperInitial(username));
    st.(currentUser := Some(user), isAuthenticated := true)
  }

  /** `logout()`: signed out, no current user, everything else kept. */
  function Logout(st: State): (r: State)
    ensures !r.isAuthenticated && r.currentUser.None?
    ensures r.(isAuthenticated := st.isAuthenticated, currentUser := st.currentUser) == st
  {
    st.(isAuthenticated := false, currentUser := None)
  }

  /** Logging in and out again leaves the same state as only logging out. */
  lemma LogoutUndoesLogin(st: State, username: string, password: string, now: nat)
    ensures Logout(Login(st, username, password, now)) == Logout(st)
  {
  }

  // ---------------------------------------------------------------------
  // Tasks
  // ---------------------------------------------------------------------

  /** `addTask`: the task goes at the end; earlier tasks keep values and order. */
  function AddTask(st: State, t: Task): (r: State)
    ensures |r.tasks| == |st.tasks| + 1 && r.tasks[..|st.tasks|] == st.tasks && r.tasks[|st.tasks|] == t
    ensures r.(tasks := st.tasks) == st
  {
    st.(tasks := st.tasks + [t])
  }

  /** `{ ...t, ...updates }`: each field named by the patch is overwritten, the others kept. */
  function Apply(t: Task, p: TaskPatch): (r: Task)
    ensures r.id == p.id.GetOr(t.id) && r.title == p.title.GetOr(t.title)
    ensures r.description == p.description.GetOr(t.description) && r.status == p.status.GetOr(t.status)
    ensures r.assignee == p.assignee.GetOr(t.assignee) && r.dueDate == p.dueDate.GetOr(t.dueDate)
  {
    Task(
      if p.id.Some? then p.id.value else t.id,
      if p.title.Some? then p.title.value else t.title,
      if p.description.Some? then p.description.value else t.description,
      if p.status.Some? then p.status.value else t.status,
      if p.assignee.Some? then p.assignee.value else t.assignee,
      if p.dueDate.Some? then p.dueDate.value else t.dueDate)
  }

  /** `updateTask(id, updates)`: every task with that id is patched; all other
      tasks, the length and the order are kept. */
  function UpdateTask(st: State, id: string, p: TaskPatch): (r: State)
    ensures |r.tasks| == |st.tasks|
    ensures forall i :: 0 <= i < |st.tasks| && st.tasks[i].id == id ==> r.tasks[i] == Apply(st.tasks[i], p)
    ensures forall i :: 0 <= i < |st.tasks| && st.tasks[i].id != id ==> r.tasks[i] == st.tasks[i]
    ensures r.(tasks := st.tasks) == st
  {
    st.(tasks := seq(|st.tasks|, i requires 0 <= i < |st.tasks| => if st.tasks[i].id == id then Apply(st.tasks[i], p) else st.tasks[i]))
  }

  /** An id that no task has leaves the state unchanged. */
  lemma UpdateUnknownIdNoChange(st: State, id: string, p: TaskPatch)
    requires forall i :: 0 <= i < |st.tasks| ==> st.tasks[i].id != id
    ensures UpdateTask(st, id, p) == st
  {
    assert UpdateTask(st, id, p).tasks == st.tasks;
  }

  /** Applying the same update twice is the same as applying it once (even when
      the patch renames the task, so that the second pass no longer finds it). */
  lemma UpdateTaskIdempotent(st: State, id: string, p: TaskPatch)
    ensures UpdateTask(UpdateTask(st, id, p), id, p) == UpdateTask(st, id, p)
  {
    var once := UpdateTask(st, id, p);
    var twice := UpdateTask(once, id, p);
    forall i | 0 <= i < |st.tasks|
      ensures twice.tasks[i] == once.tasks[i]
    {
      if st.tasks[i].id == id && once.tasks[i].id == id {
        assert Apply(once.tasks[i], p) == once.tasks[i];
      }
    }
    assert twice.tasks == once.tasks;
  }

  // ---------------------------------------------------------------------
  // Team members
  // ---------------------------------------------------------------------

  /** `addTeamMember`: the member gets the id `member-<now>` and goes at the end. */
  function AddTeamMember(st: State, name: string, role: string, avatar: string, now: nat): (r: State)
    ensures |r.teamMembers| == |st.teamMembers| + 1 && r.teamMembers[..|st.teamMembers|] == st.teamMembers
    ensures var m := r.teamMembers[|st.teamMembers|];
      m.name == name && m.role == role && m.avatar == avatar && StartsWith(m.id, "member-")
    ensures r.(teamMembers := st.teamMembers) == st
  {
    st.(teamMembers := st.teamMembers + [Member("member-" + NatToString(now), name, role, avatar)])
  }

  /** Ids come from the clock alone: two members added in the same millisecond share an id,
      and members added at different times never do. */
  lemma MemberIdsFollowClock(st: State, a: string, b: string, ra: string, rb: string, av: string, bv: string, t1: nat, t2: nat)
    ensures var s1 := AddTeamMember(st, a, ra, av, t1);
      var s2 := AddTeamMember(s1, b, rb, bv, t2);
      s2.teamMembers[|st.teamMembers|].id == s2.teamMembers[|st.teamMembers| + 1].id <==> t1 == t2
  {
    var s1 := AddTeamMember(st, a, ra, av, t1);
    var s2 := AddTeamMember(s1, b, rb, bv, t2);
    var x := s2.teamMembers[|st.teamMembers|].id;
    var y := s2.teamMembers[|st.teamMembers| + 1].id;
    if x == y {
      assert x == "member-" + NatToString(t1);
      assert y == "member-" + NatToString(t2);
      assert NatToString(t1) == x[7..] == y[7..] == NatToString(t2);
      DecimalRoundTrip(t1);
      DecimalRoundTrip(t2);
    }
  }

  // ---------------------------------------------------------------------
  // Deadline and hackathon end time
  // ---------------------------------------------------------------------

  /** `setDeadline` as exported (the provider's `updateDeadline`): a date sets
      both the deadline and the end time; `null` clears only the deadline. */
  function UpdateDeadline(st: State, d: Option<int>): (r: State)
    ensures r.deadline == d
    ensures d.Some? ==> r.hackathonEndTime == d
    ensures d.None? ==> r.hackathonEndTime == st.hackathonEndTime
    ensures r.(deadline := st.deadline, hackathonEndTime := st.hackathonEndTime) == st
  {
    match d
    case Some(_) => st.(deadline := d, hackathonEndTime := d)
    case None => st.(deadline := None)
  }

  /** `resetHackathonTimer`: both times become 48 hours from now. */
  function ResetHackathonTimer(st: State, now: int): (r: State)
    ensures r.deadline == r.hackathonEndTime == Some(now + HackathonMs)
    ensures r.(deadline := st.deadline, hackathonEndTime := st.hackathonEndTime) == st
  {
    st.(hackathonEndTime := Some(now + HackathonMs), deadline := Some(now + HackathonMs))
  }

  /** Once a date has been set, the two times agree until the deadline is cleared. */
  predicate TimesCoupled(st: State) {
    st.deadline.Some? ==> st.hackathonEndTime == st.deadline
  }

  /** Every timer operation keeps the two times coupled. */
  lemma TimerOperationsKeepCoupling(st: State, d: Option<int>, now: int)
    requires TimesCoupled(st)
    ensures TimesCoupled(UpdateDeadline(st, d))
    ensures TimesCoupled(ResetHackathonTimer(st, now))
  {
  }

  // ---------------------------------------------------------------------
  // Task-list views shared by the pages
  // ---------------------------------------------------------------------

  /** `tasks.filter(t => t.status === s)`. */
  function WithStatus(ts: seq<Task>, s: Status): (r: seq<Task>)
    ensures |r| <= |ts|
    ensures forall i :: 0 <= i < |r| ==> r[i].status == s
  {
    if |ts| == 0 then []
    else if ts[0].status == s then [ts[0]] + WithStatus(ts[1..], s)
    else WithStatus(ts[1..], s)
  }

  /** A task is in the view of status `s` exactly when it is in the list with that status. */
  lemma {:induction false} WithStatusExact(ts: seq<Task>, s: Status)
    ensures forall t :: t in WithStatus(ts, s) <==> t in ts && t.status == s
  {
    if |ts| > 0 {
      WithStatusExact(ts[1..], s);
      assert ts == [ts[0]] + ts[1..];
    }
  }

  /** `tasks.filter(t => t.status !== s)`. */
  function WithoutStatus(ts: seq<Task>, s: Status): (r: seq<Task>)
    ensures |r| <= |ts|
    ensures forall i :: 0 <= i < |r| ==> r[i].status != s
    ensures forall t :: t in ts && t.status != s ==> t in r
    ensures forall t :: t in r ==> t in ts
  {
    if |ts| == 0 then []
    else if ts[0].status != s then [ts[0]] + WithoutStatus(ts[1..], s)
    else WithoutStatus(ts[1..], s)
  }

  /** Splitting by a status loses and invents nothing: the two filters together
      are a permutation of the list. */
  lemma {:induction false} FilterSplit(ts: seq<Task>, s: Status)
    ensures multiset(WithStatus(ts, s)) + multiset(WithoutStatus(ts, s)) == multiset(ts)
    ensures |WithStatus(ts, s)| + |WithoutStatus(ts, s)| == |ts|
  {
    if |ts| > 0 {
      FilterSplit(ts[1..], s);
      assert ts == [ts[0]] + ts[1..];
    }
  }

  /** The three status filters together have exactly the tasks of the list, so
      every task sits in exactly one of them. */
  lemma {:induction false} ThreeColumnsCover(ts: seq<Task>)
    ensures multiset(WithStatus(ts, ToDo)) + multiset(WithStatus(ts, InProgress)) + multiset(WithStatus(ts, Done)) == multiset(ts)
    ensures |WithStatus(ts, ToDo)| + |WithStatus(ts, InProgress)| + |WithStatus(ts, Done)| == |ts|
  {
    if |ts| > 0 {
      ThreeColumnsCover(ts[1..]);
      assert ts == [ts[0]] + ts[1..];
    }
  }

  /** Filtering a list with one more task at the end: the task joins the end of
      its own column only. */
  lemma {:induction false} WithStatusSnoc(ts: seq<Task>, t: Task, s: Status)
    ensures WithStatus(ts + [t], s) == WithStatus(ts, s) + (if t.status == s then [t] else [])
  {
    if |ts| == 0 {
      assert ts + [t] == [t];
    } else {
      assert (ts + [t])[1..] == ts[1..] + [t];
      WithStatusSnoc(ts[1..], t, s);
    }
  }

  /** An appended task joins the complement filter at its end exactly when it
      has another status, so the complement keeps the list's order. */
  lemma {:induction false} WithoutStatusSnoc(ts: seq<Task>, t: Task, s: Status)
    ensures WithoutStatus(ts + [t], s) == WithoutStatus(ts, s) + (if t.status != s then [t] else [])
  {
    if |ts| == 0 {
      assert ts + [t] == [t];
    } else {
      assert (ts + [t])[1..] == ts[1..] + [t];
      WithoutStatusSnoc(ts[1..], t, s);
    }
  }
}

=== FILE: auth_controller.dfy ===
/** The account routes of the back end (backend/controllers/authController.js)
    together with the user schema's pre-save hook they trigger. bcrypt is a
    deterministic function `hash` (its salt is not modelled), so that
    `bcrypt.compare(p, stored)` holds exactly when `stored == hash(p)`. The text
    of a JavaScript or Mongoose error is the parameter `explain`. */
module AuthController {

  import opened Basics
  import opened Text
  import opened Schema

  datatype RegisterBody = RegisterBody(name: Option<string>, email: Option<string>, password: Option<string>)
  datatype LoginBody = LoginBody(email: Option<string>, password: Option<string>)

  /** The errors the handlers' `try` blocks catch. */
  datatype Fault =
    | TrimOfUndefined   // `email.trim()` or `password.trim()` on a missing field
    | UserValidation    // `User.create` rejects a document missing a required field

  const ServerErrorPrefix: string := "Server Error: "
  const UserExists: string := "User already exists"
  const BadCredentials: string := "Invalid email or password"
  const UserNotFound: string := "User not found"
  const RegisterTokenLife: string := "1d"
  const LoginTokenLife: string := "30d"

  function ProfileOf(u: UserDoc): (p: Profile)
    ensures p.id == u.id && p.name == u.name && p.email == u.email
  {
    Profile(u.id, u.name, u.email)
  }

  /** The user document `User.create` would store before hooks run, or `None`
      when the schema's `required` rules reject it. */
  function NewUser(db: Db, name: Option<string>, email: string, password: string): (r: Option<UserDoc>)
    ensures r.Some? <==> Truthy(name) && email != "" && password != ""
    ensures r.Some? ==> r.value == UserDoc(FreshId(db), name.value, email, password, Member, None)
  {
    if Truthy(name) && email != "" && password != "" then Some(UserDoc(FreshId(db), name.value, email, password, Member, None))
    else None
  }

  /** `registerUser` as written: the email is trimmed and lower-cased and the
      password trimmed before anything else; a taken email gives 400; the
      controller hashes the password and `User.create` runs the pre-save hook,
      which hashes it a second time. The reply holds the id, name and email and
      a one-day token. */
  function RegisterUser(db: Db, body: RegisterBody, hash: string -> string, explain: Fault -> string): (r: (Db, Reply))
    ensures body.email.None? || body.password.None? ==> r == (db, Message(500, ServerErrorPrefix + explain(TrimOfUndefined)))
    ensures body.email.Some? && body.password.Some? && FindUserByEmail(db.users, NormalEmail(body.email.value)).Some?
      ==> r == (db, Message(400, UserExists))
    ensures r.1.AuthReply? <==>
      && body.email.Some? && body.password.Some?
      && FindUserByEmail(db.users, NormalEmail(body.email.value)).None?
      && NewUser(db, body.name, NormalEmail(body.email.value), hash(Strip(JavaScript, body.password.value))).Some?
    ensures body.email.Some? && body.password.Some? && FindUserByEmail(db.users, NormalEmail(body.email.value)).None?
      && NewUser(db, body.name, NormalEmail(body.email.value), hash(Strip(JavaScript, body.password.value))).None?
      ==> r == (db, Message(500, ServerErrorPrefix + explain(UserValidation)))
    ensures r.1.AuthReply? ==>
      && body.email.Some? && body.password.Some?
      && NewUser(db, body.name, NormalEmail(body.email.value), hash(Strip(JavaScript, body.password.value))).Some?
      && var u := NewUser(db, body.name, NormalEmail(body.email.value), hash(Strip(JavaScript, body.password.value))).value;
      && FindUserByEmail(db.users, u.email).None?
      && r.0 == db.(users := db.users + [u.(password := hash(hash(Strip(JavaScript, body.password.value))))])
      && r.1 == AuthReply(201, ProfileOf(u), Token(u.id, RegisterTokenLife))
    ensures !r.1.AuthReply? ==> r.0 == db
  {
    if body.email.None? || body.password.None? then (db, Message(500, ServerErrorPrefix + explain(TrimOfUndefined)))
    else
      var email := NormalEmail(body.email.value);
      var password := Strip(JavaScript, body.password.value);
      if FindUserByEmail(db.users, email).Some? then (db, Message(400, UserExists))
      else
        var hashed := hash(password);
        match NewUser(db, body.name, email, hashed)
        case None => (db, Message(500, ServerErrorPrefix + explain(UserValidation)))
        case Some(u) =>
          var stored := PreSave(u, true, hash);
          (db.(users := db.users + [stored]), AuthReply(201, ProfileOf(u), Token(u.id, RegisterTokenLife)))
  }

  /** `registerUser` as evidently intended: the pre-save hook alone hashes the
      password, once. */
  function RegisterUserHashedOnce(db: Db, body: RegisterBody, hash: string -> string, explain: Fault -> string): (r: (Db, Reply))
    ensures body.email.None? || body.password.None? ==> r == (db, Message(500, ServerErrorPrefix + explain(TrimOfUndefined)))
    ensures body.email.Some? && body.password.Some? && FindUserByEmail(db.users, NormalEmail(body.email.value)).Some?
      ==> r == (db, Message(400, UserExists))
    ensures r.1.AuthReply? <==>
      && body.email.Some? && body.password.Some?
      && FindUserByEmail(db.users, NormalEmail(body.email.value)).None?
      && NewUser(db, body.name, NormalEmail(body.email.value), Strip(JavaScript, body.password.value)).Some?
    ensures body.email.Some? && body.password.Some? && FindUserByEmail(db.users, NormalEmail(body.email.value)).None?
      && NewUser(db, body.name, NormalEmail(body.email.value), Strip(JavaScript, body.password.value)).None?
      ==> r == (db, Message(500, ServerErrorPrefix + explain(UserValidation)))
    ensures r.1.AuthReply? ==>
      && body.email.Some? && body.password.Some?
      && NewUser(db, body.name, NormalEmail(body.email.value), Strip(JavaScript, body.password.value)).Some?
      && var u := NewUser(db, body.name, NormalEmail(body.email.value), Strip(JavaScript, body.password.value)).value;
      && FindUserByEmail(db.users, u.email).None?
      && r.0 == db.(users := db.users + [u.(password := hash(Strip(JavaScript, body.password.value)))])
      && r.1 == AuthReply(201, ProfileOf(u), Token(u.id, RegisterTokenLife))
    ensures !r.1.AuthReply? ==> r.0 == db
  {
    if body.email.None? || body.password.None? then (db, Message(500, ServerErrorPrefix + explain(TrimOfUndefined)))
    else
      var email := NormalEmail(body.email.value);
      var password := Strip(JavaScript, body.password.value);
      if FindUserByEmail(db.users, email).Some? then (db, Message(400, UserExists))
      else
        match NewUser(db, body.name, email, password)
        case None => (db, Message(500, ServerErrorPrefix + explain(UserValidation)))
        case Some(u) =>
          var stored := PreSave(u, true, hash);
          (db.(users := db.users + [stored]), AuthReply(201, ProfileOf(u), Token(u.id, RegisterTokenLife)))
  }

  /** `loginUser`: the same normalisation as registration; an unknown email and
      a wrong password get the very same 401 reply; a match gets a 30-day token. */
  function LoginUser(db: Db, body: LoginBody, hash: string -> string, explain: Fault -> string): (r: Reply)
    ensures body.email.None? || body.password.None? ==> r == Message(500, ServerErrorPrefix + explain(TrimOfUndefined))
    ensures r.AuthReply? <==>
      && body.email.Some? && body.password.Some?
      && var found := FindUserByEmail(db.users, NormalEmail(body.email.value));
         found.Some? && found.value.password == hash(Strip(JavaScript, body.password.value))
    ensures r.AuthReply? ==>
      var u := FindUserByEmail(db.users, NormalEmail(body.email.value)).value;
      r == AuthReply(200, ProfileOf(u), Token(u.id, LoginTokenLife))
    ensures body.email.Some? && body.password.Some? && !r.AuthReply? ==> r == Message(401, BadCredentials)
  {
    if body.email.None? || body.password.None? then Message(500, ServerErrorPrefix + explain(TrimOfUndefined))
    else
      var email := NormalEmail(body.email.value);
      var password := Strip(JavaScript, body.password.value);
      match FindUserByEmail(db.users, email)
      case None => Message(401, BadCredentials)
      case Some(u) =>
        if u.password != hash(password) then Message(401, BadCredentials)
        else AuthReply(200, ProfileOf(u), Token(u.id, LoginTokenLife))
  }

  /** `getUserProfile`: the id, name and email of the authenticated user, else 404. */
  function GetUserProfile(user: Option<PublicUser>): (r: Reply)
    ensures user.None? ==> r == Message(404, UserNotFound)
    ensures user.Some? ==> r == ProfileReply(200, Profile(user.value.id, user.value.name, user.value.email))
  {
    match user
    case None => Message(404, UserNotFound)
    case Some(u) => ProfileReply(200, Profile(u.id, u.name, u.email))
  }

  /** Whitespace around the email, its letter case, and whitespace around the
      password do not matter to login. */
  lemma LoginNormalises(db: Db, e1: string, e2: string, p1: string, p2: string, hash: string -> string, explain: Fault -> string)
    requires NormalEmail(e1) == NormalEmail(e2) && Strip(JavaScript, p1) == Strip(JavaScript, p2)
    ensures LoginUser(db, LoginBody(Some(e1), Some(p1)), hash, explain) == LoginUser(db, LoginBody(Some(e2), Some(p2)), hash, explain)
  {
  }

  /** As written, logging in right after registering succeeds only for a hash
      with `hash(hash(p)) == hash(p)`, which bcrypt does not satisfy. */
  lemma RegisterThenLoginAsWritten(db: Db, name: Option<string>, email: string, password: string, hash: string -> string, explain: Fault -> string)
    requires RegisterUser(db, RegisterBody(name, Some(email), Some(password)), hash, explain).1.AuthReply?
    ensures var db2 := RegisterUser(db, RegisterBody(name, Some(email), Some(password)), hash, explain).0;
      var p := Strip(JavaScript, password);
      LoginUser(db2, LoginBody(Some(email), Some(password)), hash, explain).AuthReply? <==> hash(hash(p)) == hash(p)
  {
    var body := RegisterBody(name, Some(email), Some(password));
    var u := NewUser(db, name, NormalEmail(email), hash(Strip(JavaScript, password))).value;
    FindFirstAppended(db.users, UserEmailOf, u.(password := hash(hash(Strip(JavaScript, password)))));
  }

  /** A stand-in for bcrypt that is not idempotent. */
  function SampleHash(p: string): string {
    "$" + p
  }

  function NoExplanation(f: Fault): string {
    ""
  }

  /** With `SampleHash`, every account that registers successfully is refused
      at login with its own email and password. */
  lemma RegisterThenLoginRejected(db: Db, name: Option<string>, email: string, password: string)
    requires RegisterUser(db, RegisterBody(name, Some(email), Some(password)), SampleHash, NoExplanation).1.AuthReply?
    ensures var db2 := RegisterUser(db, RegisterBody(name, Some(email), Some(password)), SampleHash, NoExplanation).0;
      LoginUser(db2, LoginBody(Some(email), Some(password)), SampleHash, NoExplanation) == Message(401, BadCredentials)
  {
    var p := Strip(JavaScript, password);
    RegisterThenLoginAsWritten(db, name, email, password, SampleHash, NoExplanation);
    assert |SampleHash(SampleHash(p))| == |SampleHash(p)| + 1;
  }

  /** With the password hashed once, logging in right after registering
      succeeds for every hash function, with the registered account. */
  lemma RegisterThenLoginHashedOnce(db: Db, name: Option<string>, email: string, password: string, hash: string -> string, explain: Fault -> string)
    requires RegisterUserHashedOnce(db, RegisterBody(name, Some(email), Some(password)), hash, explain).1.AuthReply?
    ensures var (db2, reply) := RegisterUserHashedOnce(db, RegisterBody(name, Some(email), Some(password)), hash, explain);
      LoginUser(db2, LoginBody(Some(email), Some(password)), hash, explain) == AuthReply(200, reply.user, Token(reply.user.id, LoginTokenLife))
  {
    var u := NewUser(db, name, NormalEmail(email), Strip(JavaScript, password)).value;
    FindFirstAppended(db.users, UserEmailOf, u.(password := hash(Strip(JavaScript, password))));
  }

  /** Registering keeps the database valid, emails unique included, given a
      hash that never yields the empty string (a bcrypt hash has 60 characters). */
  lemma RegisterKeepsDbValid(db: Db, body: RegisterBody, hash: string -> string, explain: Fault -> string)
    requires ValidDb(db)
    requires forall p :: hash(p) != ""
    ensures ValidDb(RegisterUser(db, body, hash, explain).0)
    ensures ValidDb(RegisterUserHashedOnce(db, body, hash, explain).0)
  {
    var r := RegisterUser(db, body, hash, explain);
    if r.1.AuthReply? {
      UsersValidSnoc(db.users, r.0.users[|db.users|]);
      assert r.0.users == db.users + [r.0.users[|db.users|]];
    }
    var r2 := RegisterUserHashedOnce(db, body, hash, explain);
    if r2.1.AuthReply? {
      UsersValidSnoc(db.users, r2.0.users[|db.users|]);
      assert r2.0.users == db.users + [r2.0.users[|db.users|]];
    }
  }

  lemma UsersValidSnoc(us: seq<UserDoc>, u: UserDoc)
    requires UsersValid(us) && ValidUser(u)
    requires forall i :: 0 <= i < |us| ==> us[i].id != u.id
    requires FindUserByEmail(us, u.email).None?
    ensures UsersValid(us + [u])
  {
    var vs := us + [u];
    forall i, j | 0 <= i < j < |vs|
      ensures vs[i].id != vs[j].id && vs[i].email != vs[j].email
    {
      if j < |us| {
        assert vs[i] == us[i] && vs[j] == us[j];
      } else {
        assert vs[i] == us[i] && vs[j] == u;
      }
    }
    forall i | 0 <= i < |vs|
      ensures ValidUser(vs[i])
    {
      if i < |us| {
        assert vs[i] == us[i];
      }
    }
  }
}

=== FILE: auth_middleware.dfy ===
/** The `protect` middleware (backend/middleware/authMiddleware.js) that guards
    the task and team routes. Checking a token's signature and expiry is the
    parameter `verify`, which yields the user id a valid token carries. */
module AuthMiddleware {

  import opened Basics
  import opened Text
  import opened Schema
  import AuthController

  const NoToken: string := "Not authorized, no token provided"
  const TokenInvalid: string := "Not authorized, token invalid"
  const UserNotFound: string := "User not found"
  const Scheme: string := "Bearer"

  /** Either the request goes on with the user attached, or it is answered. */
  datatype Outcome = Next(user: PublicUser) | Rejected(status: nat, message: string)

  /** The token the handler reads: the second space-separated field of the header. */
  function TokenOf(header: string): (r: Option<string>)
    ensures r.Some? <==> ' ' in header
    ensures r.Some? ==> |Split(header, ' ')| > 1 && r.value == Split(header, ' ')[1]
  {
    SplitHasSecondField(header);
    Field(header, ' ', 1)
  }

  /** `protect`: a header not starting with "Bearer" gets 401 "no token"; a
      missing second field or a token `verify` refuses gets 401 "token
      invalid"; an id with no user gets 404; otherwise the stored user, password
      removed, is passed on. */
  function Protect(db: Db, header: Option<string>, verify: string -> Option<Id>): (r: Outcome)
    ensures header.None? || !StartsWith(header.value, Scheme) ==> r == Rejected(401, NoToken)
    ensures r.Next? <==>
      && header.Some? && StartsWith(header.value, Scheme)
      && TokenOf(header.value).Some?
      && verify(TokenOf(header.value).value).Some?
      && FindUser(db.users, verify(TokenOf(header.value).value).value).Some?
    ensures r.Next? ==>
      && r.user.id == verify(TokenOf(header.value).value).value
      && exists i :: 0 <= i < |db.users| && r.user == ToJson(db.users[i])
    ensures r.Rejected? && header.Some? && StartsWith(header.value, Scheme) ==>
      r == Rejected(404, UserNotFound) || r == Rejected(401, TokenInvalid)
    ensures r == Rejected(404, UserNotFound) <==>
      && header.Some? && StartsWith(header.value, Scheme)
      && TokenOf(header.value).Some?
      && verify(TokenOf(header.value).value).Some?
      && FindUser(db.users, verify(TokenOf(header.value).value).value).None?
  {
    if header.None? || !StartsWith(header.value, Scheme) then Rejected(401, NoToken)
    else
      match TokenOf(header.value)
      case None => Rejected(401, TokenInvalid)
      case Some(token) =>
        match verify(token)
        case None => Rejected(401, TokenInvalid)
        case Some(id) =>
          match FindUser(db.users, id)
          case None => Rejected(404, UserNotFound)
          case Some(u) => Next(ToJson(u))
  }

  /** A string splits into at least two fields exactly when it holds the separator. */
  lemma {:induction false} SplitHasSecondField(s: string)
    ensures |Split(s, ' ')| >= 2 <==> ' ' in s
  {
    if |s| > 0 {
      SplitHasSecondField(s[1..]);
      assert s == [s[0]] + s[1..];
    }
  }

  /** For the header "Bearer <t>" with a token free of spaces, the token handed
      to `verify` is exactly `t`, and the outcome is decided by `verify(t)` and
      the user lookup. */
  lemma BearerTokenIsVerified(db: Db, t: string, verify: string -> Option<Id>)
    requires ' ' !in t
    ensures TokenOf("Bearer " + t) == Some(t)
    ensures verify(t).None? ==> Protect(db, Some("Bearer " + t), verify) == Rejected(401, TokenInvalid)
    ensures verify(t).Some? && FindUser(db.users, verify(t).value).None?
      ==> Protect(db, Some("Bearer " + t), verify) == Rejected(404, UserNotFound)
    ensures verify(t).Some? && FindUser(db.users, verify(t).value).Some?
      ==> Protect(db, Some("Bearer " + t), verify) == Next(ToJson(FindUser(db.users, verify(t).value).value))
  {
    assert "Bearer " + t == Scheme + [' '] + t;
    SplitPrefix(Scheme, t, ' ');
    SplitFieldFree(t, ' ');
    assert StartsWith("Bearer " + t, Scheme);
  }

  /** The word "Bearer" alone has no token: 401 "token invalid", not "no token". */
  lemma BareSchemeIsInvalid(db: Db, verify: string -> Option<Id>)
    ensures Protect(db, Some(Scheme), verify) == Rejected(401, TokenInvalid)
  {
    assert StartsWith(Scheme, Scheme);
    assert ' ' !in Scheme;
  }

  /** A token from a successful login, presented as "Bearer <t>" to a `verify`
      that recovers the id it was signed with, lets the request through as the
      user who logged in. */
  lemma LoginTokenAuthenticates(db: Db, body: AuthController.LoginBody, hash: string -> string,
                                explain: AuthController.Fault -> string, t: string, verify: string -> Option<Id>)
    requires UsersValid(db.users)
    requires AuthController.LoginUser(db, body, hash, explain).AuthReply?
    requires ' ' !in t
    requires verify(t) == Some(AuthController.LoginUser(db, body, hash, explain).token.subject)
    ensures var reply := AuthController.LoginUser(db, body, hash, explain);
      var r := Protect(db, Some("Bearer " + t), verify);
      && r.Next? && r.user.id == reply.user.id
      && r.user.name == reply.user.name && r.user.email == reply.user.email
      && AuthController.GetUserProfile(Some(r.user)) == ProfileReply(200, reply.user)
  {
    var reply := AuthController.LoginUser(db, body, hash, explain);
    var u := FindUserByEmail(db.users, NormalEmail(body.email.value)).value;
    assert reply == AuthReply(200, AuthController.ProfileOf(u), Token(u.id, AuthController.LoginTokenLife));
    var k :| 0 <= k < |db.users| && db.users[k] == u;
    FindFirstUnique(db.users, UserIdOf, k);
    BearerTokenIsVerified(db, t, verify);
  }
}

=== FILE: basics.dfy ===
/** Small shared vocabulary: optional values and the three task states that
    both the React front end and the Mongoose task schema use. */
module Basics {

  /** A value that may be absent (a missing JSON field, `null`, `undefined`). */
  datatype Option<+T> = None | Some(value: T) {
    function GetOr(default: T): T {
      match this
      case Some(v) => v
      case None => default
    }
  }

  /** The first element of `xs` whose key is `k`, as Mongoose's `findOne` and
      `findById` and JavaScript's `Array.prototype.find` return it. */
  function FindFirst<T(==), K(==)>(xs: seq<T>, key: T -> K, k: K): (r: Option<T>)
    ensures r.Some? ==> r.value in xs && key(r.value) == k
    ensures r.None? <==> forall i :: 0 <= i < |xs| ==> key(xs[i]) != k
  {
    if |xs| == 0 then None
    else if key(xs[0]) == k then Some(xs[0])
    else FindFirst(xs[1..], key, k)
  }

  /** With unique keys, looking up the key of any element finds that element. */
  lemma {:induction false} FindFirstUnique<T, K>(xs: seq<T>, key: T -> K, k: nat)
    requires k < |xs|
    requires forall i, j :: 0 <= i < j < |xs| ==> key(xs[i]) != key(xs[j])
    ensures FindFirst(xs, key, key(xs[k])) == Some(xs[k])
  {
    if k > 0 {
      assert key(xs[0]) != key(xs[k]);
      FindFirstUnique(xs[1..], key, k - 1);
    }
  }

  /** An element appended under a key no element had is what that key now finds. */
  lemma {:induction false} FindFirstAppended<T, K>(xs: seq<T>, key: T -> K, x: T)
    requires FindFirst(xs, key, key(x)).None?
    ensures FindFirst(xs + [x], key, key(x)) == Some(x)
  {
    if |xs| > 0 {
      assert (xs + [x])[1..] == xs[1..] + [x];
      FindFirstAppended(xs[1..], key, x);
    }
  }

  /** `xs.map(y => key(y) === key(x) ? x : y)`: every element with the key of `x`
      is replaced by `x`, and every other element stays where it is. */
  function ReplaceByKey<T, K(==)>(xs: seq<T>, key: T -> K, x: T): (r: seq<T>)
    ensures |r| == |xs|
    ensures forall i :: 0 <= i < |xs| ==> r[i] == (if key(xs[i]) == key(x) then x else xs[i])
  {
    seq(|xs|, i requires 0 <= i < |xs| => if key(xs[i]) == key(x) then x else xs[i])
  }

  /** Task status; the only three values the task schema's enum admits and the
      only three the front-end `Task` type allows. */
  datatype Status = ToDo | InProgress | Done

  /** The wire spelling of a status. */
  function StatusLabel(s: Status): string {
    match s
    case ToDo => "To Do"
    case InProgress => "In Progress"
    case Done => "Done"
  }

  /** Reading a status from its wire spelling; any other string is not a status. */
  function ParseStatus(spelling: string): (r: Option<Status>)
    ensures r.Some? ==> StatusLabel(r.value) == spelling
    ensures (exists s :: StatusLabel(s) == spelling) ==> r.Some?
  {
    if spelling == "To Do" then Some(ToDo)
    else if spelling == "In Progress" then Some(InProgress)
    else if spelling == "Done" then Some(Done)
    else None
  }

  /** Time spans in milliseconds, the unit of `Date.getTime()`. */
  const SecondMs: nat := 1000
  const MinuteMs: nat := 60 * 1000
  const HourMs: nat := 60 * 60 * 1000
  const DayMs: nat := 24 * 60 * 60 * 1000

  /** Labels and parsing are mutually inverse. */
  lemma StatusRoundTrip(s: Status)
    ensures ParseStatus(StatusLabel(s)) == Some(s)
  {
  }
}

=== FILE: chat_page.dfy ===
/** The team chat page (pages/chat.tsx): sending a message. The clock and the
    formatted local time are parameters. */
module ChatPage {

  import opened Text

  datatype ChatMessage = ChatMessage(id: int, author: string, avatar: string, time: string, text: string, isCurrentUser: bool)

  datatype Page = Page(messages: seq<ChatMessage>, newMessage: string)

  const CurrentAuthor: string := "Dia"
  const CurrentAvatar: string := "https://placehold.co/40x40/38bdf8/ffffff?text=D"

  /** `handleSendMessage`: an input that is empty after trimming is ignored;
      otherwise the untrimmed input is appended as the current user's message and
      the input is cleared. */
  function HandleSendMessage(p: Page, now: int, timeString: string): (r: Page)
    ensures AllSpace(JavaScript, p.newMessage) ==> r == p
    ensures !AllSpace(JavaScript, p.newMessage) ==>
      && r.messages == p.messages + [ChatMessage(now, CurrentAuthor, CurrentAvatar, timeString, p.newMessage, true)]
      && r.newMessage == ""
  {
    StripEmptyIff(JavaScript, p.newMessage);
    if Strip(JavaScript, p.newMessage) == "" then p
    else Page(p.messages + [ChatMessage(now, CurrentAuthor, CurrentAvatar, timeString, p.newMessage, true)], "")
  }

  /** Pressing send twice posts once: the cleared input is refused the second time. */
  lemma SendTwicePostsOnce(p: Page, now1: int, now2: int, t1: string, t2: string)
    ensures var once := HandleSendMessage(p, now1, t1);
      HandleSendMessage(once, now2, t2) == once
  {
    var once := HandleSendMessage(p, now1, t1);
    if !AllSpace(JavaScript, p.newMessage) {
      assert AllSpace(JavaScript, once.newMessage);
    }
  }
}

=== FILE: dashboard.dfy ===
/** The dashboard's arithmetic (pages/dashboard.tsx, and the older copy
    frontend/pages/dashboard.tsx, which computes the task statistics, the
    deadline text, the upcoming list and the team initial the same way):
    task counts and completion percentage, the millisecond countdown split into
    days/hours/minutes/seconds, the 48-hour progress bar, and the "time
    remaining" text. Distances are whole milliseconds; `Math.floor` of a
    non-negative quotient is `/`, and `%` on non-negative numbers agrees with
    JavaScript's. */
module Dashboard {

  import opened Basics
  import opened Text
  import opened AppContext

  /** The progress bar assumes a 48-hour hackathon. */
  const TotalDurationMs: nat := 48 * 60 * 60 * 1000

  // ---------------------------------------------------------------------
  // Task statistics
  // ---------------------------------------------------------------------

  datatype Stats = Stats(
    totalTasks: nat,
    completedTasks: nat,
    inProgressTasks: nat,
    todoTasks: nat,
    completionPercentage: nat,
    chartData: seq<nat>)

  /** The labels the chart shows, in the order of `chartData`. */
  const ChartLabels: seq<string> := ["Done", "In Progress", "To Do"]

  /** The status each chart slice counts, slice by slice. */
  const ChartStatuses: seq<Status> := [Done, InProgress, ToDo]

  /** Each chart label is the spelling of the status its slice counts. */
  lemma ChartLabelsNameStatuses()
    ensures |ChartLabels| == |ChartStatuses|
    ensures forall i :: 0 <= i < |ChartLabels| ==> ParseStatus(ChartLabels[i]) == Some(ChartStatuses[i])
  {
    assert ParseStatus(ChartLabels[0]) == Some(Done);
    assert ParseStatus(ChartLabels[1]) == Some(InProgress);
    assert ParseStatus(ChartLabels[2]) == Some(ToDo);
  }

  /** `Math.round(100 * done / total)` computed exactly: the nearest integer,
      halves rounded up. */
  function RoundedPercent(done: nat, total: nat): (p: nat)
    requires 0 < total && done <= total
    ensures p <= 100
    ensures 2 * (100 * done) <= 2 * p * total + total && 2 * p * total <= 2 * (100 * done) + total
  {
    var n, m := 200 * done + total, 2 * total;
    var p := n / m;
    DivModUnique(n, m, p, n % m);
    assert n == p * m + n % m;
    assert p <= 100 by {
      assert n < 101 * m;
      if p >= 101 {
        MulMonotone(101, p, m);
      }
    }
    p
  }

  lemma MulMonotone(a: int, b: int, m: int)
    requires a <= b && m >= 0
    ensures a * m <= b * m
  {
    assert b * m - a * m == (b - a) * m;
  }

  /** `taskStats`. */
  function TaskStats(tasks: seq<Task>): (st: Stats)
    ensures st.totalTasks == |tasks|
    ensures st.completedTasks + st.inProgressTasks + st.todoTasks == st.totalTasks
    ensures st.totalTasks == 0 ==> st.completionPercentage == 0
    ensures st.completionPercentage <= 100
    ensures |st.chartData| == |ChartStatuses|
    ensures forall i :: 0 <= i < |ChartStatuses| ==> st.chartData[i] == |WithStatus(tasks, ChartStatuses[i])|
  {
    var total := |tasks|;
    var done := |WithStatus(tasks, Done)|;
    var progress := |WithStatus(tasks, InProgress)|;
    var todo := |WithStatus(tasks, ToDo)|;
    ThreeColumnsCover(tasks);
    var pct := if total > 0 then RoundedPercent(done, total) else 0;
    Stats(total, done, progress, todo, pct, [done, progress, todo])
  }

  /** Completion is 0% when nothing is done and 100% when everything is. */
  lemma CompletionExtremes(tasks: seq<Task>)
    requires |tasks| > 0
    ensures |WithStatus(tasks, Done)| == 0 ==> TaskStats(tasks).completionPercentage == 0
    ensures |WithStatus(tasks, Done)| == |tasks| ==> TaskStats(tasks).completionPercentage == 100
  {
    var total := |tasks|;
    var done := |WithStatus(tasks, Done)|;
    assert TaskStats(tasks).completionPercentage == RoundedPercent(done, total);
    RoundedPercentExtremes(total);
  }

  lemma RoundedPercentExtremes(total: nat)
    requires total > 0
    ensures RoundedPercent(0, total) == 0 && RoundedPercent(total, total) == 100
  {
    assert 200 * 0 + total == 0 * (2 * total) + total;
    DivModUnique(200 * 0 + total, 2 * total, 0, total);
    assert 200 * total + total == 100 * (2 * total) + total;
    DivModUnique(200 * total + total, 2 * total, 100, total);
  }

  /** Upcoming tasks: those not done, in their original order; there are as many
      as the total minus the completed count. */
  function UpcomingTasks(tasks: seq<Task>): (r: seq<Task>)
    ensures forall i :: 0 <= i < |r| ==> r[i].status != Done
    ensures |r| == TaskStats(tasks).totalTasks - TaskStats(tasks).completedTasks
    ensures multiset(r) + multiset(WithStatus(tasks, Done)) == multiset(tasks)
  {
    FilterSplit(tasks, Done);
    WithoutStatus(tasks, Done)
  }

  /** Upcoming tasks keep the list's order: a task added at the end is listed
      last among them when it is not done, and not at all otherwise. */
  lemma UpcomingKeepsOrder(tasks: seq<Task>, t: Task)
    ensures UpcomingTasks([]) == []
    ensures UpcomingTasks(tasks + [t]) == UpcomingTasks(tasks) + (if t.status != Done then [t] else [])
  {
    WithoutStatusSnoc(tasks, t, Done);
  }

  /** `teamName ? teamName.charAt(0) : "T"`. */
  function TeamInitial(teamName: string): (r: string)
    ensures |r| == 1
    ensures teamName == [] ==> r == "T"
    ensures teamName != [] ==> r[0] == teamName[0]
  {
    if teamName == [] then "T" else [teamName[0]]
  }

  // ---------------------------------------------------------------------
  // Countdown
  // ---------------------------------------------------------------------

  datatype Countdown = Countdown(days: nat, hours: nat, minutes: nat, seconds: nat)

  /** The time a countdown stands for, as `getHackathonProgress` recomputes it. */
  function RemainingMs(c: Countdown): nat {
    c.days * DayMs + c.hours * HourMs + c.minutes * MinuteMs + c.seconds * SecondMs
  }

  predicate Normalised(c: Countdown) {
    c.hours < 24 && c.minutes < 60 && c.seconds < 60
  }

  /** `calculateHackathonTime`: `null` once the end is past, otherwise the
      distance split into whole days, hours, minutes and seconds. */
  function CountdownOf(distance: int): (r: Option<Countdown>)
    ensures r.None? <==> distance < 0
    ensures r.Some? ==> Normalised(r.value) && r.value.days == distance / DayMs
  {
    if distance < 0 then None
    else
      Some(Countdown(
        distance / DayMs,
        (distance % DayMs) / HourMs,
        (distance % HourMs) / MinuteMs,
        (distance % MinuteMs) / SecondMs))
  }

  /** The fields recompose to the distance with its sub-second part dropped. */
  lemma CountdownRecomposes(distance: int)
    requires distance >= 0
    ensures RemainingMs(CountdownOf(distance).value) == distance - distance % SecondMs
  {
    var d := distance;
    var r1 := d % DayMs;
    var r2 := d % HourMs;
    var r3 := d % MinuteMs;
    assert d == (d / DayMs) * DayMs + r1;
    assert r1 == (r1 / HourMs) * HourMs + r1 % HourMs;
    ModOfMod(d, 24, HourMs);
    assert r2 == (r2 / MinuteMs) * MinuteMs + r2 % MinuteMs;
    ModOfMod(d, 60, MinuteMs);
    assert r3 == (r3 / SecondMs) * SecondMs + r3 % SecondMs;
    ModOfMod(d, 60, SecondMs);
  }

  /** Reducing modulo `k * m` and then modulo `m` is reducing modulo `m`. */
  lemma ModOfMod(d: nat, k: nat, m: nat)
    requires k > 0 && m > 0
    ensures (d % (k * m)) % m == d % m
  {
    var q := d / (k * m);
    var r := d % (k * m);
    assert d == q * (k * m) + r;
    assert d == (q * k) * m + r;
    var q2 := r / m;
    assert r == q2 * m + r % m;
    assert d == (q * k + q2) * m + r % m;
    DivModUnique(d, m, q * k + q2, r % m);
  }

  /** Division with remainder has exactly one answer. */
  lemma DivModUnique(d: nat, m: nat, q: int, r: int)
    requires m > 0 && 0 <= r < m && d == q * m + r
    ensures d / m == q && d % m == r
  {
    var q0 := d / m;
    var r0 := d % m;
    assert q0 * m + r0 == q * m + r;
    assert (q0 - q) * m == r - r0;
    SmallMultipleIsZero(q0 - q, m);
  }

  /** The only multiple of m strictly between -m and m is zero. */
  lemma SmallMultipleIsZero(x: int, m: int)
    requires m > 0 && -m < x * m < m
    ensures x == 0
  {
    if x >= 1 {
      MulAtLeast(x, m);
    } else if x <= -1 {
      MulAtLeast(-x, m);
    }
  }

  lemma MulAtLeast(x: int, m: int)
    requires x >= 1 && m > 0
    ensures x * m >= m
  {
    assert x * m == (x - 1) * m + m;
  }

  /** Conversely, a normalised countdown is the one shown for every distance
      within the same second as its recomposed time. */
  lemma CountdownUnique(c: Countdown, subSecond: nat)
    requires Normalised(c) && subSecond < SecondMs
    ensures CountdownOf(RemainingMs(c) + subSecond) == Some(c)
  {
    var d := RemainingMs(c) + subSecond;
    var rest := c.hours * HourMs + c.minutes * MinuteMs + c.seconds * SecondMs + subSecond;
    assert rest < DayMs;
    DivModPair(d, DayMs, c.days, rest);
    var rest2 := c.minutes * MinuteMs + c.seconds * SecondMs + subSecond;
    assert rest2 < HourMs;
    DivModPair(rest, HourMs, c.hours, rest2);
    assert d == (c.days * 24 + c.hours) * HourMs + rest2;
    DivModUnique(d, HourMs, c.days * 24 + c.hours, rest2);
    var rest3 := c.seconds * SecondMs + subSecond;
    DivModPair(rest2, MinuteMs, c.minutes, rest3);
    assert d == ((c.days * 24 + c.hours) * 60 + c.minutes) * MinuteMs + rest3;
    DivModUnique(d, MinuteMs, (c.days * 24 + c.hours) * 60 + c.minutes, rest3);
    DivModPair(rest3, SecondMs, c.seconds, subSecond);
  }

  lemma DivModPair(d: nat, m: nat, q: nat, r: nat)
    requires m > 0 && r < m && d == q * m + r
    ensures d / m == q && d % m == r
  {
    DivModUnique(d, m, q, r);
  }

  // ---------------------------------------------------------------------
  // Progress bar
  // ---------------------------------------------------------------------

  function Clamp(x: real): (r: real)
    ensures 0.0 <= r <= 100.0
    ensures 0.0 <= x <= 100.0 ==> r == x
  {
    if x < 0.0 then 0.0 else if x > 100.0 then 100.0 else x
  }

  /** `getHackathonProgress`: 0 without an end time or a countdown; otherwise the
      elapsed share of 48 hours, in percent, clamped to [0, 100]. */
  function HackathonProgress(endTime: Option<int>, remaining: Option<Countdown>): (r: real)
    ensures 0.0 <= r <= 100.0
    ensures endTime.None? || remaining.None? ==> r == 0.0
  {
    if endTime.None? || remaining.None? then 0.0
    else
      var elapsed := TotalDurationMs - RemainingMs(remaining.value);
      Clamp((elapsed as real / TotalDurationMs as real) * 100.0)
  }

  /** The bar is full exactly when less than a second is left, and empty exactly
      when 48 hours or more are left. */
  lemma ProgressEnds(endTime: int, distance: int)
    requires distance >= 0
    ensures var p := HackathonProgress(Some(endTime), CountdownOf(distance));
      && (p == 100.0 <==> distance < SecondMs)
      && (p == 0.0 <==> distance >= TotalDurationMs)
  {
    CountdownRecomposes(distance);
    var rem := RemainingMs(CountdownOf(distance).value);
    assert rem == distance - distance % SecondMs;
    assert distance < SecondMs <==> rem == 0;
    assert distance >= TotalDurationMs <==> rem >= TotalDurationMs;
  }

  /** Less time left never means less progress. */
  lemma ProgressMonotone(endTime: int, d1: int, d2: int)
    requires 0 <= d1 <= d2
    ensures HackathonProgress(Some(endTime), CountdownOf(d2)) <= HackathonProgress(Some(endTime), CountdownOf(d1))
  {
    CountdownRecomposes(d1);
    CountdownRecomposes(d2);
    var r1 := RemainingMs(CountdownOf(d1).value);
    var r2 := RemainingMs(CountdownOf(d2).value);
    assert d1 - d1 % SecondMs <= d2 - d2 % SecondMs by {
      assert d1 - d1 % SecondMs == (d1 / SecondMs) * SecondMs;
      assert d2 - d2 % SecondMs == (d2 / SecondMs) * SecondMs;
      DivMonotone(d1, d2, SecondMs);
    }
    assert r1 <= r2;
  }

  lemma DivMonotone(a: nat, b: nat, m: nat)
    requires a <= b && m > 0
    ensures a / m <= b / m
  {
    var qa, ra := a / m, a % m;
    var qb, rb := b / m, b % m;
    assert qa * m + ra <= qb * m + rb;
    assert (qa - qb) * m < m;
    if qa - qb >= 1 {
      MulAtLeast(qa - qb, m);
    }
  }

  // ---------------------------------------------------------------------
  // "Time remaining" text
  // ---------------------------------------------------------------------

  const DeadlineNotSet: string := "Deadline not set"
  const Expired: string := "Expired"

  /** "D days, H hours, M minutes remaining". */
  function Phrase(days: nat, hours: nat, minutes: nat): string {
    NatToString(days) + (" days, " + (NatToString(hours) + (" hours, " + (NatToString(minutes) + " minutes remaining"))))
  }

  /** The text for a non-negative distance, with the three fields computed as
      `calculateTimeRemaining` computes them. */
  function RemainingText(distance: nat): string {
    Phrase(distance / DayMs, (distance % DayMs) / HourMs, (distance % HourMs) / MinuteMs)
  }

  /** The phrase determines its three figures. */
  lemma PhraseInjective(d1: nat, h1: nat, m1: nat, d2: nat, h2: nat, m2: nat)
    requires Phrase(d1, h1, m1) == Phrase(d2, h2, m2)
    ensures d1 == d2 && h1 == h2 && m1 == m2
  {
    var tail := " minutes remaining";
    var rest1 := NatToString(m1) + tail;
    var rest2 := NatToString(m2) + tail;
    var mid1 := NatToString(h1) + (" hours, " + rest1);
    var mid2 := NatToString(h2) + (" hours, " + rest2);
    NumeralPrefixUnique(d1, d2, " days, " + mid1, " days, " + mid2);
    DropPrefix(" days, ", mid1, mid2);
    NumeralPrefixUnique(h1, h2, " hours, " + rest1, " hours, " + rest2);
    DropPrefix(" hours, ", rest1, rest2);
    NumeralPrefixUnique(m1, m2, tail, tail);
  }

  lemma DropPrefix(p: string, a: string, b: string)
    requires p + a == p + b
    ensures a == b
  {
    assert a == (p + a)[|p|..];
    assert b == (p + b)[|p|..];
  }

  /** Whatever figures the text shows are those of the hackathon countdown for
      the same distance, normalised, and they recompose to the distance rounded
      down to the whole minute. */
  lemma RemainingTextRecomposes(distance: nat, days: nat, hours: nat, minutes: nat)
    requires RemainingText(distance) == Phrase(days, hours, minutes)
    ensures hours < 24 && minutes < 60
    ensures days * DayMs + hours * HourMs + minutes * MinuteMs == distance - distance % MinuteMs
    ensures CountdownOf(distance) == Some(Countdown(days, hours, minutes, (distance % MinuteMs) / SecondMs))
  {
    PhraseInjective(distance / DayMs, (distance % DayMs) / HourMs, (distance % HourMs) / MinuteMs, days, hours, minutes);
    CountdownRecomposes(distance);
    ModOfMod(distance, 60, SecondMs);
    var r3 := distance % MinuteMs;
    assert r3 == (r3 / SecondMs) * SecondMs + r3 % SecondMs;
  }

  /** The value `timeRemaining` holds after the deadline effect runs, as written:
      the negative-distance branch stores "Expired" and then returns nothing, and
      the caller immediately stores that `undefined`, so the state ends empty. */
  function TimeRemainingAsWritten(deadline: Option<int>, now: int): (r: Option<string>)
    ensures deadline.None? ==> r == Some(DeadlineNotSet)
    ensures deadline.Some? && deadline.value - now < 0 ==> r.None?
    ensures deadline.Some? && deadline.value - now >= 0 ==> r == Some(RemainingText(deadline.value - now))
  {
    match deadline
    case None => Some(DeadlineNotSet)
    case Some(d) =>
      var distance := d - now;
      if distance < 0 then None   // "Expired" is overwritten by the returned undefined
      else Some(RemainingText(distance))
  }

  /** An expired deadline never shows "Expired": the text is empty instead. */
  lemma ExpiredNeverShown(deadline: int, now: int)
    requires deadline < now
    ensures TimeRemainingAsWritten(Some(deadline), now) != Some(Expired)
    ensures TimeRemainingAsWritten(Some(deadline), now).None?
  {
  }

  /** The evidently intended value: "Expired" stays once the deadline has passed. */
  function TimeRemaining(deadline: Option<int>, now: int): (r: Option<string>)
    ensures r.Some?
    ensures deadline.Some? && deadline.value < now ==> r == Some(Expired)
    ensures deadline.None? || deadline.value >= now ==> r == TimeRemainingAsWritten(deadline, now)
  {
    match deadline
    case None => Some(DeadlineNotSet)
    case Some(d) =>
      var distance := d - now;
      if distance < 0 then Some(Expired)
      else Some(RemainingText(distance))
  }
}

=== FILE: files_page.dfy ===
/** The saved-links part of the files page (pages/files.tsx): an "add link"
    dialog with a title/URL guard and a default category. `Date.now()` is the
    parameter `now`. */
module FilesPage {

  datatype Link = Link(id: int, title: string, url: string, category: string)

  datatype Page = Page(links: seq<Link>, showAddLinkModal: bool, newLinkTitle: string, newLinkUrl: string, newLinkCategory: string)

  const DefaultCategory: string := "General"

  /** `openAddLinkModal`: the three fields are cleared and the dialog shown. */
  function OpenAddLinkModal(p: Page): (r: Page)
    ensures r.newLinkTitle == "" && r.newLinkUrl == "" && r.newLinkCategory == ""
    ensures r.showAddLinkModal && r.links == p.links
  {
    p.(newLinkTitle := "", newLinkUrl := "", newLinkCategory := "", showAddLinkModal := true)
  }

  function CloseAddLinkModal(p: Page): (r: Page)
    ensures !r.showAddLinkModal
    ensures r.(showAddLinkModal := p.showAddLinkModal) == p
  {
    p.(showAddLinkModal := false)
  }

  /** `addLink`: without a title or a URL nothing happens; otherwise one link is
      appended, filed under the entered category or "General", and the dialog closes. */
  function AddLink(p: Page, now: int): (r: Page)
    ensures p.newLinkTitle == "" || p.newLinkUrl == "" ==> r == p
    ensures p.newLinkTitle != "" && p.newLinkUrl != "" ==>
      && |r.links| == |p.links| + 1
      && r.links[..|p.links|] == p.links
      && r.links[|p.links|] == Link(now, p.newLinkTitle, p.newLinkUrl, r.links[|p.links|].category)
      && (p.newLinkCategory == "" ==> r.links[|p.links|].category == DefaultCategory)
      && (p.newLinkCategory != "" ==> r.links[|p.links|].category == p.newLinkCategory)
      && !r.showAddLinkModal
  {
    if p.newLinkTitle == "" || p.newLinkUrl == "" then p
    else
      var link := Link(now, p.newLinkTitle, p.newLinkUrl, if p.newLinkCategory != "" then p.newLinkCategory else DefaultCategory);
      CloseAddLinkModal(p.(links := p.links + [link]))
  }

  /** A freshly opened dialog cannot add anything until a title and a URL are typed,
      and a saved link never has an empty category. */
  lemma FreshDialogAddsNothing(p: Page, now: int)
    ensures AddLink(OpenAddLinkModal(p), now) == OpenAddLinkModal(p)
    ensures forall i :: |p.links| <= i < |AddLink(p, now).links| ==> AddLink(p, now).links[i].category != ""
  {
  }
}

=== FILE: pitch.dfy ===
/** The two text templates of the pitch helper: a pitch assembled from bullet
    points (ai-pitch/generate_pitch.py) and a fixed eight-step plan that quotes
    the user's idea (ai-pitch/ai_assistant.py). */
module Pitch {

  import opened Text

  const Intro: string := "Introducing our innovative solution:"
  const Closing: string := "With a passionate team and a strong vision, we are set to disrupt the industry."

  /** The points joined with ". ", in the order given, untouched. */
  function PitchBody(points: seq<string>): string {
    Join(points, ". ")
  }

  /** `generate_pitch_from_points`: intro, blank line, body and a full stop, blank line, closing. */
  function GeneratePitch(points: seq<string>): (r: string)
    ensures StartsWith(r, Intro + "\n\n")
    ensures EndsWith(r, ".\n\n" + Closing)
    ensures |r| == |Intro| + 2 + |PitchBody(points)| + 3 + |Closing|
  {
    Intro + "\n\n" + PitchBody(points) + ".\n\n" + Closing
  }

  /** Cutting the fixed frame off a pitch recovers exactly the joined points. */
  function BodyOf(pitch: string): string
    requires |pitch| >= |Intro| + 2 + 3 + |Closing|
  {
    pitch[|Intro| + 2..|pitch| - 3 - |Closing|]
  }

  lemma PitchBodyRecovered(points: seq<string>)
    ensures BodyOf(GeneratePitch(points)) == Join(points, ". ")
  {
    var r := GeneratePitch(points);
    assert r[|Intro| + 2..|r| - 3 - |Closing|] == PitchBody(points);
  }

  /** With no points the body is empty and only the stray full stop remains. */
  lemma EmptyPitch()
    ensures GeneratePitch([]) == "Introducing our innovative solution:\n\n.\n\n" + Closing
  {
    assert PitchBody([]) == "";
    assert Intro + "\n\n" + "" == "Introducing our innovative solution:\n\n";
  }

  /** For n >= 1 points the length is the frame, the points and n - 1 two-character separators. */
  lemma PitchLength(points: seq<string>)
    requires |points| >= 1
    ensures |GeneratePitch(points)| == |Intro| + |Closing| + TotalLength(points) + 2 * (|points| - 1) + 5
  {
    JoinLength(points, ". ");
  }

  /** Adding one more point extends the body by ". " and that point; a point that
      already ends in a full stop keeps it, so no de-duplication happens. */
  lemma PitchAppendPoint(points: seq<string>, p: string)
    requires |points| >= 1
    ensures BodyOf(GeneratePitch(points + [p])) == BodyOf(GeneratePitch(points)) + ". " + p
  {
    PitchBodyRecovered(points);
    PitchBodyRecovered(points + [p]);
    JoinSnoc(points, p, ". ");
  }

  // ---------------------------------------------------------------------
  // get_next_steps
  // ---------------------------------------------------------------------

  /** The first line, quoting the idea verbatim (no escaping of quotes). */
  function Header(idea: string): string {
    HeaderOpening + idea + HeaderClosing
  }

  const HeaderOpening: string := "Based on your idea: \""
  const HeaderClosing: string := "\", here are the suggested next steps:"

  /** The eight steps, in the order the template lists them. */
  const Steps: seq<string> := [
    "Clearly define the problem you are solving.",
    "Identify your target audience and their pain points.",
    "Conduct market and competitor research.",
    "Create wireframes or a basic prototype.",
    "Validate the idea through feedback or surveys.",
    "Develop a Minimum Viable Product (MVP).",
    "Launch to a small group and iterate based on feedback.",
    "Start building your brand and pitch for funding (if needed)."
  ]

  /** Line i of the plan: the step number i + 1, a full stop and a space, then the step. */
  function PlanLines(): seq<string> {
    seq(|Steps|, i requires 0 <= i < |Steps| => NatToString(i + 1) + ". " + Steps[i])
  }

  /** What follows the header: a blank line, then the step lines separated by
      line breaks, with no trailing line break. It does not mention the idea. */
  function Plan(): string {
    "\n\n" + Join(PlanLines(), "\n")
  }

  /** `get_next_steps`: the header quoting the idea, then the fixed plan. */
  function NextSteps(idea: string): (r: string)
    ensures StartsWith(r, Header(idea))
    ensures r[|Header(idea)|..] == Plan()
  {
    Header(idea) + Plan()
  }

  /** The answer opens with the fixed words ending in a quote, and the idea
      sits verbatim right after that quote. */
  lemma IdeaQuotedVerbatim(idea: string)
    ensures StartsWith(NextSteps(idea), HeaderOpening)
    ensures NextSteps(idea)[|HeaderOpening|..|HeaderOpening| + |idea|] == idea
  {
    assert NextSteps(idea) == HeaderOpening + idea + HeaderClosing + Plan();
    LeadingPartSlices(HeaderOpening, idea, HeaderClosing, Plan());
  }

  lemma LeadingPartSlices(a: string, b: string, c: string, d: string)
    ensures (a + b + c + d)[..|a|] == a && (a + b + c + d)[|a|..|a| + |b|] == b
  {
  }

  /** Different ideas give different answers, and the part after the header is shared. */
  lemma NextStepsInjective(a: string, b: string)
    ensures NextSteps(a) == NextSteps(b) ==> a == b
    ensures NextSteps(a)[|Header(a)|..] == NextSteps(b)[|Header(b)|..]
  {
    if NextSteps(a) == NextSteps(b) {
      assert |a| == |b|;
      IdeaQuotedVerbatim(a);
      IdeaQuotedVerbatim(b);
    }
  }
}

=== FILE: schema.dfy ===
/** The three Mongoose collections of the Express back end (the files under backend/models)
    as plain records, their schema rules as predicates, and the in-memory
    database the controllers act on. ObjectIds are natural numbers; a fresh id
    is one more than every id in use. Each collection is a sequence in insertion
    order, and `findOne`/`findById` return the first match. */
module Schema {

  import opened Basics
  import opened Text

  type Id = nat

  // ---------------------------------------------------------------------
  // Documents
  // ---------------------------------------------------------------------

  /** backend/models/Task.js. */
  datatype TaskDoc = TaskDoc(
    id: Id,
    team: Id,
    title: string,
    description: string,
    status: Status,
    assignedTo: Option<Id>,
    createdBy: Id)

  /** One entry of a team's `members` array. */
  datatype Membership = Membership(user: Id, role: string)

  /** backend/models/Team.js. */
  datatype TeamDoc = TeamDoc(id: Id, name: string, members: seq<Membership>, inviteCode: string)

  /** The three roles the user schema's enum admits. */
  datatype UserRole = Leader | Member | Admin

  /** backend/models/User.js. */
  datatype UserDoc = UserDoc(id: Id, name: string, email: string, password: string, role: UserRole, teamId: Option<Id>)

  /** A user as `toJSON` (or `.select("-password")`) hands it out: every field but the password. */
  datatype PublicUser = PublicUser(id: Id, name: string, email: string, role: UserRole, teamId: Option<Id>)

  datatype Db = Db(users: seq<UserDoc>, teams: seq<TeamDoc>, tasks: seq<TaskDoc>)

  const DefaultMemberRole: string := "member"
  const LeaderRole: string := "leader"
  /** Length of a generated invite code (`nanoid(8)`). */
  const InviteCodeLength: nat := 8

  /** The `{ _id, name, email }` object the auth routes send back. */
  datatype Profile = Profile(id: Id, name: string, email: string)

  /** A signed JSON web token: the user id it carries and its lifetime. Signing
      itself is not modelled. */
  datatype Token = Token(subject: Id, expiresIn: string)

  /** What a handler sends: a status and a JSON body, or nothing at all when an
      error escapes a handler that has no `try`. */
  datatype Reply =
    | Message(status: nat, message: string)
    | TaskReply(status: nat, task: TaskDoc)
    | TaskListReply(status: nat, tasks: seq<TaskDoc>)
    | TeamReply(status: nat, team: TeamDoc)
    | AuthReply(status: nat, user: Profile, token: Token)
    | ProfileReply(status: nat, user: Profile)
    | NoReply

  /** JavaScript truthiness of an optional string body field. */
  predicate Truthy(s: Option<string>) {
    s.Some? && s.value != ""
  }

  // ---------------------------------------------------------------------
  // Setters and schema rules
  // ---------------------------------------------------------------------

  /** The task title as stored: the `trim` setter applied. */
  function TaskTitle(raw: string): (r: string)
    ensures r == Strip(JavaScript, raw) && Trimmed(JavaScript, r)
  {
    StripTrimmed(JavaScript, raw);
    Strip(JavaScript, raw)
  }

  /** The email as stored: the `trim` and `lowercase` setters applied. */
  function NormalEmail(raw: string): (r: string)
    ensures |r| <= |raw|
    ensures IsLowered(r) && Trimmed(JavaScript, r)
  {
    LowerStripShape(raw);
    ToLower(Strip(JavaScript, raw))
  }

  lemma LowerStripShape(raw: string)
    ensures IsLowered(ToLower(Strip(JavaScript, raw))) && Trimmed(JavaScript, ToLower(Strip(JavaScript, raw)))
  {
    var s := Strip(JavaScript, raw);
    StripTrimmed(JavaScript, raw);
    ToLowerIsLowered(s);
    if s != [] {
      LowerKeepsSpace(JavaScript, s[0]);
      LowerKeepsSpace(JavaScript, s[|s| - 1]);
    }
  }

  /** An email that is already lower-case and trimmed is stored as it is; in
      particular normalising twice is normalising once. */
  lemma NormalEmailFixes(e: string)
    ensures IsLowered(e) && Trimmed(JavaScript, e) ==> NormalEmail(e) == e
    ensures NormalEmail(NormalEmail(e)) == NormalEmail(e)
  {
    forall s: string | IsLowered(s) && Trimmed(JavaScript, s)
      ensures NormalEmail(s) == s
    {
      StripTrimmed(JavaScript, s);
      assert ToLower(s) == s;
    }
  }

  /** Task.js: a non-empty title that is stored trimmed (required, `trim`). The
      status enum and the presence of `team` and `createdBy` are carried by the types. */
  predicate ValidTask(t: TaskDoc) {
    t.title != "" && Trimmed(JavaScript, t.title)
  }

  /** Team.js: a name is required. */
  predicate ValidTeam(t: TeamDoc) {
    t.name != ""
  }

  /** User.js: name, email and password are required, and the email is stored normalised. */
  predicate ValidUser(u: UserDoc) {
    u.name != "" && u.email != "" && u.password != "" && IsLowered(u.email) && Trimmed(JavaScript, u.email)
  }

  /** The whole database: each document valid, ids unique per collection, emails
      and invite codes unique (the two `unique` indexes), and no team listing the
      same user twice. */
  predicate ValidDb(db: Db) {
    TasksValid(db.tasks) && TeamsValid(db.teams) && UsersValid(db.users)
  }

  predicate TasksValid(ts: seq<TaskDoc>) {
    && (forall i :: 0 <= i < |ts| ==> ValidTask(ts[i]))
    && (forall i, j :: 0 <= i < j < |ts| ==> ts[i].id != ts[j].id)
  }

  predicate TeamsValid(ts: seq<TeamDoc>) {
    && (forall i :: 0 <= i < |ts| ==> ValidTeam(ts[i]) && NoDuplicateMembers(ts[i].members))
    && (forall i, j :: 0 <= i < j < |ts| ==> ts[i].id != ts[j].id)
    && (forall i, j :: 0 <= i < j < |ts| ==> ts[i].inviteCode != ts[j].inviteCode)
  }

  predicate UsersValid(us: seq<UserDoc>) {
    && (forall i :: 0 <= i < |us| ==> ValidUser(us[i]))
    && (forall i, j :: 0 <= i < j < |us| ==> us[i].id != us[j].id)
    && (forall i, j :: 0 <= i < j < |us| ==> us[i].email != us[j].email)
  }

  predicate NoDuplicateMembers(ms: seq<Membership>) {
    forall i, j :: 0 <= i < j < |ms| ==> ms[i].user != ms[j].user
  }

  /** The pre-save hook: the password is replaced by its hash only when the
      password field was modified; `hash` is bcrypt with its salt abstracted away. */
  function PreSave(u: UserDoc, passwordModified: bool, hash: string -> string): (r: UserDoc)
    ensures passwordModified ==> r == u.(password := hash(u.password))
    ensures !passwordModified ==> r == u
  {
    if passwordModified then u.(password := hash(u.password)) else u
  }

  /** `toJSON`: the password is dropped and every other field kept. */
  function ToJson(u: UserDoc): (r: PublicUser)
    ensures r.id == u.id && r.name == u.name && r.email == u.email && r.role == u.role && r.teamId == u.teamId
  {
    PublicUser(u.id, u.name, u.email, u.role, u.teamId)
  }

  /** Two users differing only in their passwords look the same once serialised,
      and nothing but the password is lost. */
  lemma ToJsonForgetsOnlyPassword(u: UserDoc, v: UserDoc)
    ensures ToJson(u) == ToJson(v) <==> u.(password := v.password) == v
  {
  }

  // ---------------------------------------------------------------------
  // Lookups and fresh ids
  // ---------------------------------------------------------------------

  function MaxId(ids: seq<Id>): (m: Id)
    ensures forall i :: 0 <= i < |ids| ==> ids[i] <= m
  {
    if |ids| == 0 then 0
    else var rest := MaxId(ids[1..]); if ids[0] > rest then ids[0] else rest
  }

  function AllIds(db: Db): seq<Id> {
    seq(|db.users|, i requires 0 <= i < |db.users| => db.users[i].id)
    + seq(|db.teams|, i requires 0 <= i < |db.teams| => db.teams[i].id)
    + seq(|db.tasks|, i requires 0 <= i < |db.tasks| => db.tasks[i].id)
  }

  /** A new ObjectId: different from every id of every collection. */
  function FreshId(db: Db): (r: Id)
    ensures forall i :: 0 <= i < |db.users| ==> db.users[i].id != r
    ensures forall i :: 0 <= i < |db.teams| ==> db.teams[i].id != r
    ensures forall i :: 0 <= i < |db.tasks| ==> db.tasks[i].id != r
  {
    var ids := AllIds(db);
    var m := MaxId(ids);
    assert forall i :: 0 <= i < |db.users| ==> ids[i] == db.users[i].id;
    assert forall i :: 0 <= i < |db.teams| ==> ids[|db.users| + i] == db.teams[i].id;
    assert forall i :: 0 <= i < |db.tasks| ==> ids[|db.users| + |db.teams| + i] == db.tasks[i].id;
    m + 1
  }

  /** The keys the collections are searched by. */
  function UserIdOf(u: UserDoc): Id { u.id }
  function UserEmailOf(u: UserDoc): string { u.email }
  function TeamIdOf(t: TeamDoc): Id { t.id }
  function TaskIdOf(t: TaskDoc): Id { t.id }

  /** `User.findById`. */
  function FindUser(users: seq<UserDoc>, id: Id): (r: Option<UserDoc>)
    ensures r.Some? ==> r.value in users && r.value.id == id
    ensures r.None? <==> forall i :: 0 <= i < |users| ==> users[i].id != id
  {
    FindFirst(users, UserIdOf, id)
  }

  /** `User.findOne({ email })`. */
  function FindUserByEmail(users: seq<UserDoc>, email: string): (r: Option<UserDoc>)
    ensures r.Some? ==> r.value in users && r.value.email == email
    ensures r.None? <==> forall i :: 0 <= i < |users| ==> users[i].email != email
  {
    FindFirst(users, UserEmailOf, email)
  }

  /** `Team.findById`. */
  function FindTeam(teams: seq<TeamDoc>, id: Id): (r: Option<TeamDoc>)
    ensures r.Some? ==> r.value in teams && r.value.id == id
    ensures r.None? <==> forall i :: 0 <= i < |teams| ==> teams[i].id != id
  {
    FindFirst(teams, TeamIdOf, id)
  }

  /** `Task.findById`. */
  function FindTask(tasks: seq<TaskDoc>, id: Id): (r: Option<TaskDoc>)
    ensures r.Some? ==> r.value in tasks && r.value.id == id
    ensures r.None? <==> forall i :: 0 <= i < |tasks| ==> tasks[i].id != id
  {
    FindFirst(tasks, TaskIdOf, id)
  }

  /** `User.findByIdAndUpdate(id, { teamId })`: the user with that id gets the team. */
  function SetTeamId(users: seq<UserDoc>, id: Id, team: Id): (r: seq<UserDoc>)
    ensures |r| == |users|
    ensures forall i :: 0 <= i < |users| && users[i].id == id ==> r[i] == users[i].(teamId := Some(team))
    ensures forall i :: 0 <= i < |users| && users[i].id != id ==> r[i] == users[i]
  {
    seq(|users|, i requires 0 <= i < |users| => if users[i].id == id then users[i].(teamId := Some(team)) else users[i])
  }

  /** Setting a team keeps every user valid and every id and email in place. */
  lemma SetTeamIdKeepsUsersValid(users: seq<UserDoc>, id: Id, team: Id)
    requires UsersValid(users)
    ensures UsersValid(SetTeamId(users, id, team))
  {
  }
}

=== FILE: summarizer.dfy ===
/** The chat-summariser HTTP service (ai-summarizer/app.py): the `/summarize`
    handler that validates a JSON body, joins the chat messages and hands at
    most 3000 characters to an opaque summarisation model, and the `/chat`
    log that appends and lists messages.

    The model is a parameter `summarizer` from the exact call the handler
    makes (text and generation options) to either generated text or a raised
    exception's message; the handler returns the calls it made so that "called
    exactly once" and "never called" can be stated. */
module Summarizer {

  import opened Basics
  import opened Text

  /** A decoded JSON value as Python's `json` module hands it to the handler
      (floating-point numbers are not modelled). */
  datatype Json =
    | JNull
    | JBool(b: bool)
    | JInt(i: int)
    | JStr(s: string)
    | JList(items: seq<Json>)
    | JDict(fields: map<string, Json>)

  /** Python truthiness: `None`, `False`, `0`, `""`, `[]` and `{}` are false. */
  predicate Truthy(v: Json) {
    match v
    case JNull => false
    case JBool(b) => b
    case JInt(i) => i != 0
    case JStr(s) => s != ""
    case JList(xs) => xs != []
    case JDict(m) => m != map[]
  }

  /** Python `str(v)`: a string is itself, scalars print as Python prints them,
      lists and dicts go through `repr`, which is left abstract. */
  function PyStr(v: Json, repr: Json -> string): string {
    match v
    case JNull => "None"
    case JBool(b) => if b then "True" else "False"
    case JInt(i) => IntToString(i)
    case JStr(s) => s
    case JList(_) => repr(v)
    case JDict(_) => repr(v)
  }

  /** Python `p in s` for strings: `p` occurs somewhere in `s`. */
  predicate Occurs(p: string, s: string)
    decreases |s|
  {
    StartsWith(s, p) || (|s| > 0 && Occurs(p, s[1..]))
  }

  /** `'chat' in data` on a truthy body: key test on a dict, element test on a
      list, substring test on a string; `None` when Python raises `TypeError`
      (numbers and booleans are not containers). */
  function HasChatKey(data: Json): Option<bool> {
    match data
    case JDict(m) => Some("chat" in m)
    case JList(xs) => Some(JStr("chat") in xs)
    case JStr(s) => Some(Occurs("chat", s))
    case _ => None
  }

  // ---------------------------------------------------------------------
  // Requests, responses, and the model call
  // ---------------------------------------------------------------------

  /** One invocation of the summarisation model. */
  datatype SummarizerCall = SummarizerCall(text: string, maxLength: nat, minLength: nat, doSample: bool)

  /** What the model gives back: generated text, or an exception's message. */
  datatype SummarizerOutcome = Summary(text: string) | Raised(message: string)

  /** The handler's HTTP answer: `{'summary': s}` with 200, or `{'error': msg}` with a status. */
  datatype Response = Ok(summary: string) | Err(status: nat, message: string)

  /** The answer together with the model calls made while computing it. */
  datatype Handled = Handled(response: Response, calls: seq<SummarizerCall>)

  const MaxInputChars: nat := 3000
  const MaxLength: nat := 100
  const MinLength: nat := 20

  const InvalidJson: string := "Invalid JSON format"
  const InvalidInput: string := "Invalid input. Expecting JSON with a \"chat\" field (list)."
  const NoContent: string := "No meaningful messages found to summarize."
  const ServerErrorPrefix: string := "Server Error: "
  /** Flask's own answer when an exception escapes the handler (here: a
      `TypeError` raised by the validation line, which sits outside the `try`). */
  const InternalServerError: string := "Internal Server Error"

  // ---------------------------------------------------------------------
  // Building the combined text
  // ---------------------------------------------------------------------

  /** `msg.get("message", "")`. */
  function MessageOf(m: map<string, Json>): Json {
    if "message" in m then m["message"] else JStr("")
  }

  /** The piece one dict entry contributes: `str(msg.get("message", "")).strip()`. */
  function Piece(m: map<string, Json>, repr: Json -> string): string {
    Strip(Python, PyStr(MessageOf(m), repr))
  }

  /** The dict entries of the chat list, in order; everything else is skipped. */
  function DictEntries(chat: seq<Json>): (r: seq<map<string, Json>>)
    ensures |r| <= |chat|
  {
    if |chat| == 0 then []
    else match chat[0]
      case JDict(m) => [m] + DictEntries(chat[1..])
      case _ => DictEntries(chat[1..])
  }

  /** One stripped piece per dict entry, in order. */
  function Pieces(chat: seq<Json>, repr: Json -> string): (r: seq<string>)
    ensures |r| == |DictEntries(chat)|
  {
    var ds := DictEntries(chat);
    seq(|ds|, i requires 0 <= i < |ds| => Piece(ds[i], repr))
  }

  /** `" ".join(...)` of the pieces. */
  function CombinedText(chat: seq<Json>, repr: Json -> string): string {
    Join(Pieces(chat, repr), " ")
  }

  /** `combined_text[:3000]`. */
  function SafeInput(text: string): (r: string)
    ensures |r| <= MaxInputChars
    ensures |r| == if |text| <= MaxInputChars then |text| else MaxInputChars
    ensures StartsWith(text, r)
  {
    if |text| <= MaxInputChars then text else text[..MaxInputChars]
  }

  // ---------------------------------------------------------------------
  // The handler
  // ---------------------------------------------------------------------

  /** `summarize_chat`. `body` is `None` when the request body does not parse as JSON. */
  function SummarizeChat(body: Option<Json>, repr: Json -> string, summarizer: SummarizerCall -> SummarizerOutcome): (h: Handled)
    ensures |h.calls| <= 1
    ensures body.None? ==> h == Handled(Err(400, InvalidJson), [])
    ensures h.calls != [] ==>
      && h.calls[0].maxLength == MaxLength && h.calls[0].minLength == MinLength && !h.calls[0].doSample
      && |h.calls[0].text| <= MaxInputChars
    ensures h.response.Ok? ==> |h.calls| == 1 && summarizer(h.calls[0]) == Summary(h.response.summary)
    ensures h.response.Err? && h.response.status == 400 ==> h.calls == []
    ensures body.Some? && body.value.JDict? && "chat" in body.value.fields && body.value.fields["chat"].JList?
      ==> h == SummarizeList(body.value.fields["chat"].items, repr, summarizer)
    ensures body.Some? && Truthy(body.value) && HasChatKey(body.value) == Some(true) && !body.value.JDict?
      ==> h == Handled(Err(500, InternalServerError), [])
    ensures body.Some? && Truthy(body.value) && HasChatKey(body.value).None?
      ==> h == Handled(Err(500, InternalServerError), [])
  {
    match body
    case None => Handled(Err(400, InvalidJson), [])
    case Some(data) =>
      if !Truthy(data) then Handled(Err(400, InvalidInput), [])
      else match HasChatKey(data)
        case None => Handled(Err(500, InternalServerError), [])
        case Some(false) => Handled(Err(400, InvalidInput), [])
        case Some(true) =>
          match data
          case JDict(m) =>
            if !m["chat"].JList? then Handled(Err(400, InvalidInput), [])
            else SummarizeList(m["chat"].items, repr, summarizer)
          case _ =>
            // data['chat'] on a list or a string raises TypeError outside the try
            Handled(Err(500, InternalServerError), [])
  }

  /** The part of the handler inside the `try`: join, check, truncate, call once. */
  function SummarizeList(chat: seq<Json>, repr: Json -> string, summarizer: SummarizerCall -> SummarizerOutcome): (h: Handled)
    ensures Strip(Python, CombinedText(chat, repr)) == [] ==> h == Handled(Err(400, NoContent), [])
    ensures Strip(Python, CombinedText(chat, repr)) != [] ==>
      && h.calls == [SummarizerCall(SafeInput(CombinedText(chat, repr)), MaxLength, MinLength, false)]
      && (h.response.Ok? <==> summarizer(h.calls[0]).Summary?)
      && (h.response.Err? ==> h.response == Err(500, ServerErrorPrefix + summarizer(h.calls[0]).message))
  {
    var combined := CombinedText(chat, repr);
    if Strip(Python, combined) == [] then Handled(Err(400, NoContent), [])
    else
      var call := SummarizerCall(SafeInput(combined), MaxLength, MinLength, false);
      match summarizer(call)
      case Summary(s) => Handled(Ok(s), [call])
      case Raised(e) => Handled(Err(500, ServerErrorPrefix + e), [call])
  }

  // ---------------------------------------------------------------------
  // Properties of the handler
  // ---------------------------------------------------------------------

  /** A falsy body, a body without `chat`, or a `chat` that is not a list is
      rejected with the "Invalid input" message before the model is reached. */
  lemma InvalidInputRejected(data: Json, repr: Json -> string, summarizer: SummarizerCall -> SummarizerOutcome)
    requires !Truthy(data) || (data.JDict? && ("chat" !in data.fields || !data.fields["chat"].JList?))
    ensures SummarizeChat(Some(data), repr, summarizer) == Handled(Err(400, InvalidInput), [])
  {
  }

  /** The model sees the first min(n, 3000) characters of the n-character combined text. */
  lemma ModelInputIsPrefix(chat: seq<Json>, repr: Json -> string, summarizer: SummarizerCall -> SummarizerOutcome)
    requires Strip(Python, CombinedText(chat, repr)) != []
    ensures var h := SummarizeChat(Some(JDict(map["chat" := JList(chat)])), repr, summarizer);
      && |h.calls| == 1
      && StartsWith(CombinedText(chat, repr), h.calls[0].text)
      && |h.calls[0].text| == if |CombinedText(chat, repr)| <= 3000 then |CombinedText(chat, repr)| else 3000
  {
    ChatListDispatched(chat, repr, summarizer);
    var combined := CombinedText(chat, repr);
    var h := SummarizeList(chat, repr, summarizer);
    assert h.calls == [SummarizerCall(SafeInput(combined), MaxLength, MinLength, false)];
    var text := SafeInput(combined);
    assert h.calls[0].text == text;
    assert |text| == if |combined| <= 3000 then |combined| else 3000;
  }

  /** A body `{"chat": [...]}` goes straight to the list handling. */
  lemma ChatListDispatched(chat: seq<Json>, repr: Json -> string, summarizer: SummarizerCall -> SummarizerOutcome)
    ensures SummarizeChat(Some(JDict(map["chat" := JList(chat)])), repr, summarizer) == SummarizeList(chat, repr, summarizer)
  {
    var data := JDict(map["chat" := JList(chat)]);
    assert "chat" in data.fields;
    assert Truthy(data);
    assert HasChatKey(data) == Some(true);
  }

  /** Entries that are not dicts contribute nothing to the combined text. */
  lemma {:induction false} NonDictSkipped(chat: seq<Json>, v: Json, repr: Json -> string)
    requires !v.JDict?
    ensures DictEntries(chat + [v]) == DictEntries(chat)
    ensures CombinedText(chat + [v], repr) == CombinedText(chat, repr)
  {
    DictEntriesSnoc(chat, v);
  }

  /** A dict entry without "message" adds an empty piece, and so one separator. */
  lemma MissingMessageAddsSeparator(chat: seq<Json>, m: map<string, Json>, repr: Json -> string)
    requires "message" !in m
    requires |DictEntries(chat)| >= 1
    ensures CombinedText(chat + [JDict(m)], repr) == CombinedText(chat, repr) + " "
  {
    DictEntriesSnoc(chat, JDict(m));
    var ps := Pieces(chat, repr);
    var ds := DictEntries(chat + [JDict(m)]);
    assert ds == DictEntries(chat) + [m];
    assert Piece(m, repr) == "";
    assert Pieces(chat + [JDict(m)], repr) == ps + [""];
    JoinSnoc(ps, "", " ");
  }

  lemma {:induction false} DictEntriesSnoc(chat: seq<Json>, v: Json)
    ensures DictEntries(chat + [v]) == DictEntries(chat) + (if v.JDict? then [v.fields] else [])
  {
    if |chat| == 0 {
      assert [v][1..] == [];
    } else {
      assert (chat + [v])[1..] == chat[1..] + [v];
      DictEntriesSnoc(chat[1..], v);
    }
  }

  /** A space-joined text is all whitespace exactly when every part is. */
  lemma {:induction false} JoinAllSpace(parts: seq<string>)
    ensures AllSpace(Python, Join(parts, " ")) <==> forall i :: 0 <= i < |parts| ==> AllSpace(Python, parts[i])
  {
    if |parts| > 1 {
      JoinAllSpace(parts[1..]);
      var rest := Join(parts[1..], " ");
      var whole := parts[0] + " " + rest;
      if AllSpace(Python, whole) {
        forall j | 0 <= j < |parts[0]| ensures IsSpace(Python, parts[0][j]) {
          assert whole[j] == parts[0][j];
        }
        forall j | 0 <= j < |rest| ensures IsSpace(Python, rest[j]) {
          assert whole[|parts[0]| + 1 + j] == rest[j];
        }
        forall i | 0 <= i < |parts| ensures AllSpace(Python, parts[i]) {
          if i > 0 {
            assert parts[i] == parts[1..][i - 1];
          }
        }
      }
      if forall i :: 0 <= i < |parts| ==> AllSpace(Python, parts[i]) {
        forall i | 0 <= i < |parts| - 1 ensures AllSpace(Python, parts[1..][i]) {
          assert parts[1..][i] == parts[i + 1];
        }
      }
    }
  }

  /** The "no meaningful messages" answer is given exactly when every dict
      entry's stripped message is empty (in particular for an empty chat). */
  lemma NoContentIff(chat: seq<Json>, repr: Json -> string)
    ensures Strip(Python, CombinedText(chat, repr)) == [] <==>
      forall i :: 0 <= i < |Pieces(chat, repr)| ==> Pieces(chat, repr)[i] == ""
  {
    var ps := Pieces(chat, repr);
    var ds := DictEntries(chat);
    StripEmptyIff(Python, Join(ps, " "));
    JoinAllSpace(ps);
    forall i | 0 <= i < |ps|
      ensures AllSpace(Python, ps[i]) <==> ps[i] == ""
    {
      assert ps[i] == Strip(Python, PyStr(MessageOf(ds[i]), repr));
      StrippedAllSpace(PyStr(MessageOf(ds[i]), repr));
    }
  }

  /** A stripped string is all whitespace only when it is empty. */
  lemma StrippedAllSpace(s: string)
    ensures AllSpace(Python, Strip(Python, s)) <==> Strip(Python, s) == []
  {
    StripIdempotent(Python, s);
    StripEmptyIff(Python, Strip(Python, s));
  }

  // ---------------------------------------------------------------------
  // The chat log
  // ---------------------------------------------------------------------

  /** One logged message; author and message are whatever JSON the client sent. */
  datatype ChatEntry = ChatEntry(author: Json, message: Json)

  /** The answer to `POST /chat`: `{"status": "ok"}`, or a refusal that logs
      nothing. Flask refuses with 400 for a body that is not JSON, with 415 for
      a request that is not sent as JSON, and with 500 when the body parses to
      something other than an object and `data.get` raises; the model does not
      tell these three apart. */
  datatype AddReply = StatusOk | AddFailed

  /** The entry a JSON object body produces, with defaults `"Unknown"` and `""`. */
  function EntryOf(m: map<string, Json>): ChatEntry {
    ChatEntry(
      if "author" in m then m["author"] else JStr("Unknown"),
      if "message" in m then m["message"] else JStr(""))
  }

  /** `add_chat`: append exactly one entry at the end, or leave the log alone on failure. */
  function AddChat(log: seq<ChatEntry>, body: Option<Json>): (r: (seq<ChatEntry>, AddReply))
    ensures r.1 == StatusOk <==> body.Some? && body.value.JDict?
    ensures r.1 == StatusOk ==> |r.0| == |log| + 1 && r.0[..|log|] == log && r.0[|log|] == EntryOf(body.value.fields)
    ensures r.1 == AddFailed ==> r.0 == log
  {
    match body
    case Some(JDict(m)) => (log + [EntryOf(m)], StatusOk)
    case _ => (log, AddFailed)
  }

  /** `get_chat`: the whole log, oldest first. */
  function GetChat(log: seq<ChatEntry>): seq<ChatEntry> {
    log
  }

  /** Posting a sequence of bodies, one request after another. */
  function PostAll(log: seq<ChatEntry>, bodies: seq<Option<Json>>): seq<ChatEntry>
    decreases |bodies|
  {
    if |bodies| == 0 then log else PostAll(AddChat(log, bodies[0]).0, bodies[1..])
  }

  /** The entries that the accepted bodies of a sequence of posts produce, in order. */
  function AcceptedEntries(bodies: seq<Option<Json>>): seq<ChatEntry> {
    if |bodies| == 0 then []
    else
      (match bodies[0]
       case Some(JDict(m)) => [EntryOf(m)]
       case _ => [])
      + AcceptedEntries(bodies[1..])
  }

  /** After any sequence of posts, `GET /chat` lists the earlier log followed by
      the accepted entries in the order they were posted. */
  lemma {:induction false} GetAfterPosts(log: seq<ChatEntry>, bodies: seq<Option<Json>>)
    ensures GetChat(PostAll(log, bodies)) == log + AcceptedEntries(bodies)
    decreases |bodies|
  {
    if |bodies| > 0 {
      GetAfterPosts(AddChat(log, bodies[0]).0, bodies[1..]);
    }
  }

  /** A post followed by a get shows the posted message last, with the default author when omitted. */
  lemma PostThenGet(log: seq<ChatEntry>, message: string)
    ensures var r := AddChat(log, Some(JDict(map["message" := JStr(message)])));
      GetChat(r.0)[|GetChat(r.0)| - 1] == ChatEntry(JStr("Unknown"), JStr(message))
  {
  }
}

=== FILE: task_controller.dfy ===
/** The task routes of the back end (backend/controllers/taskController.js).
    `req.user` is the user the auth middleware attached (without password);
    each handler maps the database and the request to the new database and the
    reply. Any error inside a handler's `try` becomes 500 "Server Error". */
module TaskController {

  import opened Basics
  import opened Text
  import opened Schema

  /** The fields of `req.body` the task routes read. */
  datatype TaskBody = TaskBody(title: Option<string>, description: Option<string>, status: Option<string>, assignedTo: Option<Id>)

  const NoTeamToCreate: string := "You must be in a team to create tasks"
  const TitleMissing: string := "Please enter a task title"
  const NoTeam: string := "You are not part of any team"
  const TaskNotFound: string := "Task not found"
  const NotAuthorized: string := "User not authorized"
  const ServerError: string := "Server Error"
  const TaskRemoved: string := "Task removed successfully"

  /** `createTask`: the team check comes before the title check; a title that
      is only whitespace passes the check but trims to nothing and fails the
      schema's `required` rule when saved (500). The new task belongs to the
      user's team and the user, is "To Do" and has description "" when none was sent. */
  function CreateTask(db: Db, user: PublicUser, body: TaskBody): (r: (Db, Reply))
    ensures user.teamId.None? ==> r == (db, Message(400, NoTeamToCreate))
    ensures user.teamId.Some? && !Truthy(body.title) ==> r == (db, Message(400, TitleMissing))
    ensures user.teamId.Some? && Truthy(body.title) && TaskTitle(body.title.value) == "" ==> r == (db, Message(500, ServerError))
    ensures r.1.TaskReply? <==> user.teamId.Some? && Truthy(body.title) && TaskTitle(body.title.value) != ""
    ensures r.1.TaskReply? ==>
      && r.1.status == 201
      && r.0 == db.(tasks := db.tasks + [r.1.task])
      && r.1.task.team == user.teamId.value && r.1.task.createdBy == user.id
      && r.1.task.title == TaskTitle(body.title.value) && r.1.task.status == ToDo
      && r.1.task.description == body.description.GetOr("") && r.1.task.assignedTo == body.assignedTo
      && FindTask(db.tasks, r.1.task.id).None?
  {
    if user.teamId.None? then (db, Message(400, NoTeamToCreate))
    else if !Truthy(body.title) then (db, Message(400, TitleMissing))
    else
      var title := TaskTitle(body.title.value);
      if title == "" then (db, Message(500, ServerError))
      else
        var t := TaskDoc(FreshId(db), user.teamId.value, title, body.description.GetOr(""), ToDo, body.assignedTo, user.id);
        (db.(tasks := db.tasks + [t]), TaskReply(201, t))
  }

  /** The tasks of one team, in storage order: `Task.find({ team })`. */
  function TasksOfTeam(tasks: seq<TaskDoc>, team: Id): (r: seq<TaskDoc>)
    ensures |r| <= |tasks|
    ensures forall i :: 0 <= i < |r| ==> r[i].team == team
    ensures forall t :: t in tasks && t.team == team ==> t in r
    ensures forall t :: t in r ==> t in tasks
  {
    if |tasks| == 0 then []
    else if tasks[0].team == team then [tasks[0]] + TasksOfTeam(tasks[1..], team)
    else TasksOfTeam(tasks[1..], team)
  }

  lemma {:induction false} TasksOfTeamSnoc(tasks: seq<TaskDoc>, t: TaskDoc, team: Id)
    ensures TasksOfTeam(tasks + [t], team) == TasksOfTeam(tasks, team) + (if t.team == team then [t] else [])
  {
    if |tasks| == 0 {
      assert tasks + [t] == [t];
    } else {
      assert (tasks + [t])[1..] == tasks[1..] + [t];
      TasksOfTeamSnoc(tasks[1..], t, team);
    }
  }

  /** `getTasks`: 400 without a team, otherwise exactly the team's tasks. */
  function GetTasks(db: Db, user: PublicUser): (r: Reply)
    ensures user.teamId.None? ==> r == Message(400, NoTeam)
    ensures user.teamId.Some? ==> r == TaskListReply(200, TasksOfTeam(db.tasks, user.teamId.value))
  {
    match user.teamId
    case None => Message(400, NoTeam)
    case Some(team) => TaskListReply(200, TasksOfTeam(db.tasks, team))
  }

  /** A task just created is listed last for its team, after the team's earlier tasks. */
  lemma CreatedTaskIsListed(db: Db, user: PublicUser, body: TaskBody)
    requires CreateTask(db, user, body).1.TaskReply?
    ensures var (db2, reply) := CreateTask(db, user, body);
      GetTasks(db2, user) == TaskListReply(200, TasksOfTeam(db.tasks, user.teamId.value) + [reply.task])
  {
    var (db2, reply) := CreateTask(db, user, body);
    TasksOfTeamSnoc(db.tasks, reply.task, user.teamId.value);
  }

  /** The stored task after `updateTask`'s assignments, or `None` when saving it
      fails validation: each field takes the sent value only when that is
      truthy, the title is trimmed, and a status outside the enum is rejected. */
  function Merge(task: TaskDoc, body: TaskBody): (r: Option<TaskDoc>)
    ensures !Truthy(body.title) && !Truthy(body.description) && !Truthy(body.status) && body.assignedTo.None? && TaskTitle(task.title) != ""
      ==> r == Some(task.(title := TaskTitle(task.title)))
    ensures r.Some? ==> r.value.id == task.id && r.value.team == task.team && r.value.createdBy == task.createdBy
    ensures r.Some? ==> r.value.title != "" && (Truthy(body.title) ==> r.value.title == TaskTitle(body.title.value))
    ensures r.Some? && !Truthy(body.title) ==> r.value.title == TaskTitle(task.title)
    ensures r.Some? ==> r.value.description == (if Truthy(body.description) then body.description.value else task.description)
    ensures r.Some? && Truthy(body.status) ==> StatusLabel(r.value.status) == body.status.value
    ensures r.Some? && !Truthy(body.status) ==> r.value.status == task.status
    ensures r.Some? ==> r.value.assignedTo == (if body.assignedTo.Some? then body.assignedTo else task.assignedTo)
    ensures r.None? <==> (Truthy(body.title) && TaskTitle(body.title.value) == "") || (!Truthy(body.title) && TaskTitle(task.title) == "")
                         || (Truthy(body.status) && ParseStatus(body.status.value).None?)
  {
    var title := TaskTitle(if Truthy(body.title) then body.title.value else task.title);
    var description := if Truthy(body.description) then body.description.value else task.description;
    var status := if Truthy(body.status) then ParseStatus(body.status.value) else Some(task.status);
    var assignedTo := if body.assignedTo.Some? then body.assignedTo else task.assignedTo;
    if title == "" || status.None? then None
    else Some(task.(title := title, description := description, status := status.value, assignedTo := assignedTo))
  }

  /** An update that sends nothing truthy leaves a valid task exactly as it was:
      empty strings cannot clear a field. */
  lemma EmptyUpdateKeepsTask(task: TaskDoc, title: Option<string>, description: Option<string>, status: Option<string>)
    requires ValidTask(task)
    requires title.None? || title == Some("")
    requires description.None? || description == Some("")
    requires status.None? || status == Some("")
    ensures Merge(task, TaskBody(title, description, status, None)) == Some(task)
  {
    StripTrimmed(JavaScript, task.title);
  }

  /** `findByIdAndUpdate`-style replacement of the task with the given id. */
  function ReplaceTask(tasks: seq<TaskDoc>, t: TaskDoc): (r: seq<TaskDoc>)
    ensures |r| == |tasks|
    ensures forall i :: 0 <= i < |tasks| ==> r[i] == (if tasks[i].id == t.id then t else tasks[i])
  {
    ReplaceByKey(tasks, TaskIdOf, t)
  }

  /** `updateTask`: 404 for an unknown id; a user without a team reaches
      `toString()` on null and gets 500; a task of another team gives 401;
      otherwise the merged task is saved (500 if it fails validation). */
  function UpdateTask(db: Db, user: PublicUser, id: Id, body: TaskBody): (r: (Db, Reply))
    ensures FindTask(db.tasks, id).None? ==> r == (db, Message(404, TaskNotFound))
    ensures FindTask(db.tasks, id).Some? && user.teamId.None? ==> r == (db, Message(500, ServerError))
    ensures FindTask(db.tasks, id).Some? && user.teamId.Some? && FindTask(db.tasks, id).value.team != user.teamId.value
      ==> r == (db, Message(401, NotAuthorized))
    ensures r.1.TaskReply? <==>
      FindTask(db.tasks, id).Some? && user.teamId == Some(FindTask(db.tasks, id).value.team) && Merge(FindTask(db.tasks, id).value, body).Some?
    ensures r.1.TaskReply? ==>
      && r.1 == TaskReply(200, Merge(FindTask(db.tasks, id).value, body).value)
      && r.0 == db.(tasks := ReplaceTask(db.tasks, r.1.task))
    ensures !r.1.TaskReply? ==> r.0 == db
  {
    match FindTask(db.tasks, id)
    case None => (db, Message(404, TaskNotFound))
    case Some(task) =>
      if user.teamId.None? then (db, Message(500, ServerError))
      else if task.team != user.teamId.value then (db, Message(401, NotAuthorized))
      else
        match Merge(task, body)
        case None => (db, Message(500, ServerError))
        case Some(t) => (db.(tasks := ReplaceTask(db.tasks, t)), TaskReply(200, t))
  }

  /** The tasks without the given id: `findByIdAndDelete`. */
  function RemoveTask(tasks: seq<TaskDoc>, id: Id): (r: seq<TaskDoc>)
    ensures |r| <= |tasks|
    ensures forall i :: 0 <= i < |r| ==> r[i].id != id
  {
    if |tasks| == 0 then []
    else if tasks[0].id == id then RemoveTask(tasks[1..], id)
    else [tasks[0]] + RemoveTask(tasks[1..], id)
  }

  /** A task survives the removal exactly when it was stored under another id. */
  lemma {:induction false} RemoveTaskExact(tasks: seq<TaskDoc>, id: Id)
    ensures forall t :: t in RemoveTask(tasks, id) <==> t in tasks && t.id != id
  {
    if |tasks| > 0 {
      RemoveTaskExact(tasks[1..], id);
      assert tasks == [tasks[0]] + tasks[1..];
    }
  }

  /** `deleteTask`: the same 404, 500 and 401 checks as `updateTask`; then the
      task is removed and nothing else changes. */
  function DeleteTask(db: Db, user: PublicUser, id: Id): (r: (Db, Reply))
    ensures FindTask(db.tasks, id).None? ==> r == (db, Message(404, TaskNotFound))
    ensures FindTask(db.tasks, id).Some? && user.teamId.None? ==> r == (db, Message(500, ServerError))
    ensures FindTask(db.tasks, id).Some? && user.teamId.Some? && FindTask(db.tasks, id).value.team != user.teamId.value
      ==> r == (db, Message(401, NotAuthorized))
    ensures FindTask(db.tasks, id).Some? && user.teamId == Some(FindTask(db.tasks, id).value.team)
      ==> r == (db.(tasks := RemoveTask(db.tasks, id)), Message(200, TaskRemoved))
  {
    match FindTask(db.tasks, id)
    case None => (db, Message(404, TaskNotFound))
    case Some(task) =>
      if user.teamId.None? then (db, Message(500, ServerError))
      else if task.team != user.teamId.value then (db, Message(401, NotAuthorized))
      else (db.(tasks := RemoveTask(db.tasks, id)), Message(200, TaskRemoved))
  }

  /** With unique ids, removing a stored task removes exactly one document and
      keeps the others in order. */
  lemma {:induction false} RemoveTaskRemovesOne(tasks: seq<TaskDoc>, k: nat)
    requires k < |tasks|
    requires forall i, j :: 0 <= i < j < |tasks| ==> tasks[i].id != tasks[j].id
    ensures RemoveTask(tasks, tasks[k].id) == tasks[..k] + tasks[k + 1..]
  {
    var id := tasks[k].id;
    var tail := tasks[1..];
    if k == 0 {
      forall i | 0 <= i < |tail|
        ensures tail[i].id != id
      {
        assert tail[i] == tasks[i + 1];
      }
      NoIdNoRemoval(tail, id);
    } else {
      assert tasks[0].id != id;
      assert RemoveTask(tasks, id) == [tasks[0]] + RemoveTask(tail, id);
      assert tail[k - 1] == tasks[k];
      forall i, j | 0 <= i < j < |tail|
        ensures tail[i].id != tail[j].id
      {
        assert tail[i] == tasks[i + 1] && tail[j] == tasks[j + 1];
      }
      RemoveTaskRemovesOne(tail, k - 1);
      assert tasks[..k] == [tasks[0]] + tail[..k - 1];
      assert tasks[k + 1..] == tail[k..];
    }
  }

  lemma {:induction false} NoIdNoRemoval(tasks: seq<TaskDoc>, id: Id)
    requires forall i :: 0 <= i < |tasks| ==> tasks[i].id != id
    ensures RemoveTask(tasks, id) == tasks
  {
    if |tasks| > 0 {
      NoIdNoRemoval(tasks[1..], id);
      assert tasks == [tasks[0]] + tasks[1..];
    }
  }

  /** Creating a task keeps the database valid: the new title is trimmed and
      non-empty and the new id is fresh. */
  lemma CreateTaskKeepsDbValid(db: Db, user: PublicUser, body: TaskBody)
    requires ValidDb(db)
    ensures ValidDb(CreateTask(db, user, body).0)
  {
    var r := CreateTask(db, user, body);
    if r.1.TaskReply? {
      assert FindTask(db.tasks, r.1.task.id).None?;
      TasksValidSnoc(db.tasks, r.1.task);
    }
  }

  lemma TasksValidSnoc(ts: seq<TaskDoc>, t: TaskDoc)
    requires TasksValid(ts) && ValidTask(t)
    requires forall i :: 0 <= i < |ts| ==> ts[i].id != t.id
    ensures TasksValid(ts + [t])
  {
  }

  /** Updating a task keeps the database valid: the saved task passed validation
      and kept its id. */
  lemma UpdateTaskKeepsDbValid(db: Db, user: PublicUser, id: Id, body: TaskBody)
    requires ValidDb(db)
    ensures ValidDb(UpdateTask(db, user, id, body).0)
  {
    var r := UpdateTask(db, user, id, body);
    if r.1.TaskReply? {
      var stored := FindTask(db.tasks, id).value;
      var t := r.1.task;
      assert ValidTask(stored);
      StripTrimmed(JavaScript, stored.title);
      assert ValidTask(t);
      assert t.id == id;
      ReplaceKeepsValid(db.tasks, t);
    }
  }

  lemma ReplaceKeepsValid(ts: seq<TaskDoc>, t: TaskDoc)
    requires TasksValid(ts) && ValidTask(t)
    ensures TasksValid(ReplaceTask(ts, t))
  {
    var rs := ReplaceTask(ts, t);
    forall i, j | 0 <= i < j < |rs|
      ensures rs[i].id != rs[j].id
    {
      assert rs[i].id == ts[i].id;
      assert rs[j].id == ts[j].id;
    }
  }

  /** Deleting a task keeps the database valid. */
  lemma DeleteTaskKeepsDbValid(db: Db, user: PublicUser, id: Id)
    requires ValidDb(db)
    ensures ValidDb(DeleteTask(db, user, id).0)
  {
    RemoveKeepsValid(db.tasks, id);
  }

  lemma {:induction false} RemoveKeepsValid(ts: seq<TaskDoc>, id: Id)
    requires TasksValid(ts)
    ensures TasksValid(RemoveTask(ts, id))
  {
    if |ts| > 0 {
      RemoveKeepsValid(ts[1..], id);
      RemoveTaskExact(ts[1..], id);
      var rest := RemoveTask(ts[1..], id);
      if ts[0].id != id {
        forall j | 0 <= j < |rest|
          ensures ts[0].id != rest[j].id
        {
          assert rest[j] in ts[1..];
        }
        assert TasksValid([ts[0]] + rest);
      }
    }
  }
}

=== FILE: tasks_page.dfy ===
/** The task board (pages/tasks.tsx): three status columns over the shared
    task list, an "add task" dialog and a "change status" dialog. The page's
    own form state is a record; each handler maps the page state and the
    application state to their successors. `Date.now()` is the parameter `now`. */
module TasksPage {

  import opened Basics
  import opened Text
  import opened AppContext

  datatype Page = Page(
    showAddTaskModal: bool,
    showUpdateTaskModal: bool,
    currentTaskId: Option<string>,
    newTaskTitle: string,
    newTaskAssignee: string,
    newTaskStatus: Status)

  /** The page as first rendered. */
  const InitialPage: Page := Page(false, false, None, "", "", ToDo)

  /** The column that shows the tasks of status `s`, in list order. */
  function Column(tasks: seq<Task>, s: Status): (r: seq<Task>)
    ensures forall i :: 0 <= i < |r| ==> r[i].status == s
  {
    WithStatus(tasks, s)
  }

  /** Every task is shown in exactly one column, the one of its own status, and
      the columns together hold the list as a multiset. */
  lemma ColumnsPartition(tasks: seq<Task>)
    ensures multiset(Column(tasks, ToDo)) + multiset(Column(tasks, InProgress)) + multiset(Column(tasks, Done)) == multiset(tasks)
    ensures forall t :: t in tasks ==> t in Column(tasks, t.status)
    ensures forall t, s :: t in tasks && s != t.status ==> t !in Column(tasks, s)
  {
    ThreeColumnsCover(tasks);
    WithStatusExact(tasks, ToDo);
    WithStatusExact(tasks, InProgress);
    WithStatusExact(tasks, Done);
  }

  /** `openAddTaskModal`: clears the title and preselects the first member. */
  function OpenAddTaskModal(p: Page, members: seq<Member>): (r: Page)
    ensures r.showAddTaskModal && r.newTaskTitle == ""
    ensures |members| > 0 ==> r.newTaskAssignee == members[0].name
    ensures |members| == 0 ==> r.newTaskAssignee == ""
    ensures r.(showAddTaskModal := p.showAddTaskModal, newTaskTitle := p.newTaskTitle, newTaskAssignee := p.newTaskAssignee) == p
  {
    p.(newTaskTitle := "",
       newTaskAssignee := if |members| > 0 then members[0].name else "",
       showAddTaskModal := true)
  }

  function CloseAddTaskModal(p: Page): (r: Page)
    ensures !r.showAddTaskModal
    ensures r.(showAddTaskModal := p.showAddTaskModal) == p
  {
    p.(showAddTaskModal := false)
  }

  /** The task the add dialog creates at time `now`. */
  function NewTask(p: Page, now: nat): Task {
    Task("task-" + NatToString(now), p.newTaskTitle, "", ToDo, p.newTaskAssignee, None)
  }

  /** `handleAddTask`: an empty title does nothing; otherwise a "To Do" task
      with an empty description and the chosen assignee is appended and the
      dialog closes. */
  function HandleAddTask(p: Page, st: State, now: nat): (r: (Page, State))
    ensures p.newTaskTitle == "" ==> r == (p, st)
    ensures p.newTaskTitle != "" ==>
      && |r.1.tasks| == |st.tasks| + 1
      && r.1.tasks[..|st.tasks|] == st.tasks
      && !r.0.showAddTaskModal
      && (var t := r.1.tasks[|st.tasks|];
          t.title == p.newTaskTitle && t.status == ToDo && t.description == "" && t.assignee == p.newTaskAssignee
          && StartsWith(t.id, "task-"))
  {
    if p.newTaskTitle == "" then (p, st)
    else (CloseAddTaskModal(p), AddTask(st, NewTask(p, now)))
  }

  /** Adding a task grows the "To Do" column by that task at its end and leaves
      the other two columns as they were. */
  lemma AddedTaskJoinsToDo(p: Page, st: State, now: nat)
    requires p.newTaskTitle != ""
    ensures var tasks := HandleAddTask(p, st, now).1.tasks;
      && Column(tasks, ToDo) == Column(st.tasks, ToDo) + [NewTask(p, now)]
      && Column(tasks, InProgress) == Column(st.tasks, InProgress)
      && Column(tasks, Done) == Column(st.tasks, Done)
  {
    var t := NewTask(p, now);
    WithStatusSnoc(st.tasks, t, ToDo);
    WithStatusSnoc(st.tasks, t, InProgress);
    WithStatusSnoc(st.tasks, t, Done);
  }

  function TaskIdOf(t: Task): string { t.id }

  /** The first task with the given id, as `tasks.find`. */
  function Find(tasks: seq<Task>, id: string): (r: Option<Task>)
    ensures r.Some? ==> r.value in tasks && r.value.id == id
    ensures r.None? <==> forall i :: 0 <= i < |tasks| ==> tasks[i].id != id
  {
    FindFirst(tasks, TaskIdOf, id)
  }

  /** `openUpdateTaskModal`: an unknown id does nothing; a known one is
      selected, its status preloaded and the dialog opened. */
  function OpenUpdateTaskModal(p: Page, tasks: seq<Task>, id: string): (r: Page)
    ensures Find(tasks, id).None? ==> r == p
    ensures Find(tasks, id).Some? ==>
      r == p.(currentTaskId := Some(id), newTaskStatus := Find(tasks, id).value.status, showUpdateTaskModal := true)
  {
    match Find(tasks, id)
    case None => p
    case Some(t) => p.(currentTaskId := Some(id), newTaskStatus := t.status, showUpdateTaskModal := true)
  }

  function CloseUpdateTaskModal(p: Page): (r: Page)
    ensures !r.showUpdateTaskModal && r.currentTaskId.None?
    ensures r.(showUpdateTaskModal := p.showUpdateTaskModal, currentTaskId := p.currentTaskId) == p
  {
    p.(showUpdateTaskModal := false, currentTaskId := None)
  }

  /** The patch the status dialog sends: the status and nothing else. */
  function StatusPatch(s: Status): TaskPatch {
    TaskPatch(None, None, None, Some(s), None, None)
  }

  /** `handleUpdateTaskStatus`: without a selection nothing happens; otherwise
      the selected task gets the chosen status, every other field and task is
      kept, and the selection is cleared. */
  function HandleUpdateTaskStatus(p: Page, st: State): (r: (Page, State))
    ensures p.currentTaskId.None? ==> r == (p, st)
    ensures p.currentTaskId.Some? ==>
      && r.0.currentTaskId.None? && !r.0.showUpdateTaskModal
      && |r.1.tasks| == |st.tasks|
      && (forall i :: 0 <= i < |st.tasks| && st.tasks[i].id == p.currentTaskId.value ==>
            r.1.tasks[i] == st.tasks[i].(status := p.newTaskStatus))
      && (forall i :: 0 <= i < |st.tasks| && st.tasks[i].id != p.currentTaskId.value ==>
            r.1.tasks[i] == st.tasks[i])
  {
    match p.currentTaskId
    case None => (p, st)
    case Some(id) => (CloseUpdateTaskModal(p), UpdateTask(st, id, StatusPatch(p.newTaskStatus)))
  }

  /** Opening the status dialog on a task and confirming it unchanged leaves the
      task list as it was and the page with no selection. */
  lemma ConfirmUnchangedStatusIsNoOp(p: Page, st: State, id: string)
    requires Find(st.tasks, id).Some?
    requires forall i, j :: 0 <= i < |st.tasks| && 0 <= j < |st.tasks| && st.tasks[i].id == id && st.tasks[j].id == id ==> st.tasks[i] == st.tasks[j]
    ensures var r := HandleUpdateTaskStatus(OpenUpdateTaskModal(p, st.tasks, id), st);
      r.1 == st && r.0.currentTaskId.None? && !r.0.showUpdateTaskModal
  {
    var q := OpenUpdateTaskModal(p, st.tasks, id);
    var t := Find(st.tasks, id).value;
    var r := HandleUpdateTaskStatus(q, st);
    forall i | 0 <= i < |st.tasks|
      ensures r.1.tasks[i] == st.tasks[i]
    {
      if st.tasks[i].id == id {
        var j :| 0 <= j < |st.tasks| && st.tasks[j] == t;
        assert st.tasks[i] == st.tasks[j];
      }
    }
    assert r.1.tasks == st.tasks;
  }

  /** After a status change the task count stays the same and every task with
      the selected id is shown in the column of the chosen status. */
  lemma StatusChangeMovesColumn(p: Page, st: State)
    requires p.currentTaskId.Some?
    ensures var tasks := HandleUpdateTaskStatus(p, st).1.tasks;
      && |tasks| == |st.tasks|
      && forall i :: 0 <= i < |st.tasks| && st.tasks[i].id == p.currentTaskId.value ==>
           tasks[i] in Column(tasks, p.newTaskStatus)
  {
    WithStatusExact(HandleUpdateTaskStatus(p, st).1.tasks, p.newTaskStatus);
  }
}

=== FILE: team_controller.dfy ===
/** The team routes of the back end (backend/controllers/teamController.js).
    These handlers have no `try`: a rejected database write leaves the request
    without a reply. The generated invite code (`nanoid(8)`) is a parameter. */
module TeamController {

  import opened Basics
  import opened Schema

  const NameMissing: string := "Please enter a team name"
  const TeamNotFound: string := "Team not found"
  const AlreadyMember: string := "You are already in this team"
  const NoTeam: string := "You are not part of any team"

  function TeamCodeOf(t: TeamDoc): string { t.inviteCode }

  /** `Team.findOne({ inviteCode })`. */
  function FindTeamByCode(teams: seq<TeamDoc>, code: string): (r: Option<TeamDoc>)
    ensures r.Some? ==> r.value in teams && r.value.inviteCode == code
    ensures r.None? <==> forall i :: 0 <= i < |teams| ==> teams[i].inviteCode != code
  {
    FindFirst(teams, TeamCodeOf, code)
  }

  predicate IsMember(team: TeamDoc, user: Id) {
    exists i :: 0 <= i < |team.members| && team.members[i].user == user
  }

  /** `team.save()` of a changed team: the stored team with that id is replaced. */
  function ReplaceTeam(teams: seq<TeamDoc>, t: TeamDoc): (r: seq<TeamDoc>)
    ensures |r| == |teams|
    ensures forall i :: 0 <= i < |teams| ==> r[i] == (if teams[i].id == t.id then t else teams[i])
  {
    ReplaceByKey(teams, TeamIdOf, t)
  }

  /** `createTeam`: 400 without a name; otherwise a team whose only member is the
      creator as leader is stored, the creator's `teamId` points to it, and the
      reply is 201. An invite code already in use makes the unique index reject
      the insert, and the request gets no reply. */
  function CreateTeam(db: Db, user: PublicUser, name: Option<string>, code: string): (r: (Db, Reply))
    ensures !Truthy(name) ==> r == (db, Message(400, NameMissing))
    ensures Truthy(name) && FindTeamByCode(db.teams, code).Some? ==> r == (db, NoReply)
    ensures r.1.TeamReply? <==> Truthy(name) && FindTeamByCode(db.teams, code).None?
    ensures r.1.TeamReply? ==>
      && r.1.status == 201
      && r.1.team.name == name.value && r.1.team.inviteCode == code
      && r.1.team.members == [Membership(user.id, LeaderRole)]
      && FindTeam(db.teams, r.1.team.id).None?
      && r.0 == Db(SetTeamId(db.users, user.id, r.1.team.id), db.teams + [r.1.team], db.tasks)
  {
    if !Truthy(name) then (db, Message(400, NameMissing))
    else if FindTeamByCode(db.teams, code).Some? then (db, NoReply)
    else
      var team := TeamDoc(FreshId(db), name.value, [Membership(user.id, LeaderRole)], code);
      (Db(SetTeamId(db.users, user.id, team.id), db.teams + [team], db.tasks), TeamReply(201, team))
  }

  /** `joinTeam`: 404 for an unknown code, 400 for a user already listed;
      otherwise the user is appended as a plain member and their `teamId` is
      overwritten with the joined team. Nothing removes them from a team they
      were in before. */
  function JoinTeam(db: Db, user: PublicUser, code: string): (r: (Db, Reply))
    ensures FindTeamByCode(db.teams, code).None? ==> r == (db, Message(404, TeamNotFound))
    ensures FindTeamByCode(db.teams, code).Some? && IsMember(FindTeamByCode(db.teams, code).value, user.id)
      ==> r == (db, Message(400, AlreadyMember))
    ensures r.1.TeamReply? <==> FindTeamByCode(db.teams, code).Some? && !IsMember(FindTeamByCode(db.teams, code).value, user.id)
    ensures r.1.TeamReply? ==>
      var team := FindTeamByCode(db.teams, code).value;
      && r.1 == TeamReply(200, team.(members := team.members + [Membership(user.id, DefaultMemberRole)]))
      && r.0 == Db(SetTeamId(db.users, user.id, team.id), ReplaceTeam(db.teams, r.1.team), db.tasks)
  {
    match FindTeamByCode(db.teams, code)
    case None => (db, Message(404, TeamNotFound))
    case Some(team) =>
      if IsMember(team, user.id) then (db, Message(400, AlreadyMember))
      else
        var joined := team.(members := team.members + [Membership(user.id, DefaultMemberRole)]);
        (Db(SetTeamId(db.users, user.id, team.id), ReplaceTeam(db.teams, joined), db.tasks), TeamReply(200, joined))
  }

  /** `getMyTeam`: 404 without a team or when the team is gone, else the team. */
  function GetMyTeam(db: Db, user: PublicUser): (r: Reply)
    ensures user.teamId.None? ==> r == Message(404, NoTeam)
    ensures user.teamId.Some? && FindTeam(db.teams, user.teamId.value).None? ==> r == Message(404, TeamNotFound)
    ensures user.teamId.Some? && FindTeam(db.teams, user.teamId.value).Some?
      ==> r == TeamReply(200, FindTeam(db.teams, user.teamId.value).value)
  {
    match user.teamId
    case None => Message(404, NoTeam)
    case Some(id) =>
      match FindTeam(db.teams, id)
      case None => Message(404, TeamNotFound)
      case Some(team) => TeamReply(200, team)
  }

  /** Creating a team keeps the database valid. */
  lemma CreateTeamKeepsDbValid(db: Db, user: PublicUser, name: Option<string>, code: string)
    requires ValidDb(db)
    ensures ValidDb(CreateTeam(db, user, name, code).0)
  {
    var r := CreateTeam(db, user, name, code);
    if r.1.TeamReply? {
      var team := r.1.team;
      SetTeamIdKeepsUsersValid(db.users, user.id, team.id);
      TeamsValidSnoc(db.teams, team);
    }
  }

  lemma TeamsValidSnoc(ts: seq<TeamDoc>, t: TeamDoc)
    requires TeamsValid(ts) && ValidTeam(t) && NoDuplicateMembers(t.members)
    requires forall i :: 0 <= i < |ts| ==> ts[i].id != t.id && ts[i].inviteCode != t.inviteCode
    ensures TeamsValid(ts + [t])
  {
  }

  /** Joining keeps the database valid; in particular a team never lists the
      same user twice. */
  lemma JoinTeamKeepsDbValid(db: Db, user: PublicUser, code: string)
    requires ValidDb(db)
    ensures ValidDb(JoinTeam(db, user, code).0)
  {
    var r := JoinTeam(db, user, code);
    if r.1.TeamReply? {
      var team := FindTeamByCode(db.teams, code).value;
      var joined := r.1.team;
      SetTeamIdKeepsUsersValid(db.users, user.id, team.id);
      var k :| 0 <= k < |db.teams| && db.teams[k] == team;
      assert ValidTeam(joined);
      assert NoDuplicateMembers(joined.members) by {
        assert NoDuplicateMembers(team.members);
        forall i | 0 <= i < |team.members|
          ensures team.members[i].user != user.id
        {
        }
      }
      ReplaceTeamKeepsValid(db.teams, k, joined);
    }
  }

  /** Replacing a stored team by a valid one with the same id and invite code
      keeps the collection valid. */
  lemma ReplaceTeamKeepsValid(ts: seq<TeamDoc>, k: nat, t: TeamDoc)
    requires TeamsValid(ts) && k < |ts|
    requires t.id == ts[k].id && t.inviteCode == ts[k].inviteCode
    requires ValidTeam(t) && NoDuplicateMembers(t.members)
    ensures TeamsValid(ReplaceTeam(ts, t))
  {
    var rs := ReplaceTeam(ts, t);
    forall i | 0 <= i < |ts|
      ensures rs[i].id == ts[i].id && rs[i].inviteCode == ts[i].inviteCode
    {
      if ts[i].id == t.id {
        assert i == k;
      }
    }
  }

  /** Joining a second team leaves the user listed in the first one while their
      `teamId` now names the second. */
  lemma JoinLeavesOldMembership(db: Db, user: PublicUser, code: string, previous: nat, u: nat)
    requires ValidDb(db)
    requires previous < |db.teams| && IsMember(db.teams[previous], user.id)
    requires u < |db.users| && db.users[u].id == user.id
    requires JoinTeam(db, user, code).1.TeamReply?
    ensures var db2 := JoinTeam(db, user, code).0;
      && IsMember(db2.teams[previous], user.id)
      && db2.users[u].teamId == Some(FindTeamByCode(db.teams, code).value.id)
  {
    var team := FindTeamByCode(db.teams, code).value;
    var db2 := JoinTeam(db, user, code).0;
    var k :| 0 <= k < |db.teams| && db.teams[k] == team;
    assert previous != k;
    assert db.teams[previous].id != team.id;
    assert db2.teams[previous] == db.teams[previous];
  }

  /** After joining, the user's own-team route returns the team they joined,
      with them as its last member. */
  lemma JoinThenGetMyTeam(db: Db, user: PublicUser, code: string)
    requires ValidDb(db)
    requires JoinTeam(db, user, code).1.TeamReply?
    ensures var (db2, reply) := JoinTeam(db, user, code);
      GetMyTeam(db2, user.(teamId := Some(reply.team.id))) == TeamReply(200, reply.team)
  {
    var (db2, reply) := JoinTeam(db, user, code);
    var team := FindTeamByCode(db.teams, code).value;
    var k :| 0 <= k < |db.teams| && db.teams[k] == team;
    assert db2.teams[k] == reply.team;
    FindFirstUnique(db2.teams, TeamIdOf, k);
  }
}

=== FILE: team_page.dfy ===
/** The team settings page (pages/team.tsx): a local member list with numeric
    ids and an edit dialog that saves the edited member back by id. */
module TeamPage {

  import opened Basics

  /** A member as this page holds it; ids are numbers here. */
  datatype TeamMember = TeamMember(id: int, name: string, role: string, avatar: string)

  datatype Page = Page(members: seq<TeamMember>, showEditMemberModal: bool, currentMember: Option<TeamMember>)

  /** `openEditMemberModal`: the member is selected and the dialog shown. */
  function OpenEditMemberModal(p: Page, m: TeamMember): (r: Page)
    ensures r.currentMember == Some(m) && r.showEditMemberModal && r.members == p.members
  {
    p.(currentMember := Some(m), showEditMemberModal := true)
  }

  /** `closeEditMemberModal`: the dialog is hidden and the selection cleared. */
  function CloseEditMemberModal(p: Page): (r: Page)
    ensures !r.showEditMemberModal && r.currentMember.None? && r.members == p.members
  {
    p.(showEditMemberModal := false, currentMember := None)
  }

  function MemberIdOf(m: TeamMember): int { m.id }

  /** `prev.map(member => member.id === m.id ? m : member)`. */
  function ReplaceById(members: seq<TeamMember>, m: TeamMember): (r: seq<TeamMember>)
    ensures |r| == |members|
    ensures forall i :: 0 <= i < |members| && members[i].id == m.id ==> r[i] == m
    ensures forall i :: 0 <= i < |members| && members[i].id != m.id ==> r[i] == members[i]
  {
    ReplaceByKey(members, MemberIdOf, m)
  }

  /** `updateMember`: without a selection nothing happens; otherwise the
      selected member replaces every member with its id and the dialog closes. */
  function UpdateMember(p: Page): (r: Page)
    ensures p.currentMember.None? ==> r == p
    ensures p.currentMember.Some? ==>
      r.members == ReplaceById(p.members, p.currentMember.value) && !r.showEditMemberModal && r.currentMember.None?
  {
    match p.currentMember
    case None => p
    case Some(m) => CloseEditMemberModal(p.(members := ReplaceById(p.members, m)))
  }

  /** Saving is idempotent, and saving a member whose id nobody has changes nothing. */
  lemma ReplaceByIdLaws(members: seq<TeamMember>, m: TeamMember)
    ensures ReplaceById(ReplaceById(members, m), m) == ReplaceById(members, m)
    ensures (forall i :: 0 <= i < |members| ==> members[i].id != m.id) ==> ReplaceById(members, m) == members
  {
    if forall i :: 0 <= i < |members| ==> members[i].id != m.id {
      assert ReplaceById(members, m) == members;
    }
  }

  /** Opening the dialog on a listed member and saving without edits leaves the
      list as it was when ids are unique, and always ends with the dialog closed. */
  lemma SaveUneditedIsNoOp(p: Page, i: nat)
    requires i < |p.members|
    requires forall a, b :: 0 <= a < b < |p.members| ==> p.members[a].id != p.members[b].id
    ensures var r := UpdateMember(OpenEditMemberModal(p, p.members[i]));
      r.members == p.members && !r.showEditMemberModal && r.currentMember.None?
  {
    var m := p.members[i];
    var r := ReplaceById(p.members, m);
    forall j | 0 <= j < |p.members|
      ensures r[j] == p.members[j]
    {
      if j < i {
        assert p.members[j].id != p.members[i].id;
      } else if j > i {
        assert p.members[i].id != p.members[j].id;
      }
    }
    assert r == p.members;
  }
}

=== FILE: team_setup.dfy ===
/** The team set-up form (pages/team-setup.tsx): editable member rows, and the
    submit handler that copies the form into the application state and draws an
    invite code. The browser's date parser, the clock read by each
    `addTeamMember` call and the output of `Math.random().toString(36)` are
    parameters. */
module TeamSetup {

  import opened Basics
  import opened Text
  import opened AppContext

  /** One member row of the form. */
  datatype Row = Row(name: string, role: string)

  /** Which field of a row an edit addresses. */
  datatype RowField = NameField | RoleField

  datatype Form = Form(
    teamName: string,
    teamBio: string,
    deadline: string,
    members: seq<Row>,
    success: bool,
    inviteCode: string)

  const BlankRow: Row := Row("", "")

  /** The form as first rendered: one blank row. */
  const InitialForm: Form := Form("", "Our team is participating in a hackathon!", "", [BlankRow], false, "")

  const AvatarBase40: string := "https://placehold.co/40x40/38bdf8/ffffff?text="

  /** `addMemberInput`: one more blank row at the end. */
  function AddMemberInput(f: Form): (r: Form)
    ensures r.members == f.members + [BlankRow]
    ensures r.(members := f.members) == f
  {
    f.(members := f.members + [BlankRow])
  }

  function Get(row: Row, field: RowField): string {
    match field
    case NameField => row.name
    case RoleField => row.role
  }

  function Set(row: Row, field: RowField, value: string): (r: Row)
    ensures Get(r, field) == value
  {
    match field
    case NameField => row.(name := value)
    case RoleField => row.(role := value)
  }

  /** `updateMember(index, field, value)`: field `field` of row `index` becomes
      `value` and nothing else changes. An index with no row makes the handler
      throw a TypeError, so the rows stay as they were: `None`. */
  function UpdateMember(rows: seq<Row>, index: int, field: RowField, value: string): (r: Option<seq<Row>>)
    ensures r.Some? <==> 0 <= index < |rows|
    ensures r.Some? ==> |r.value| == |rows|
    ensures r.Some? ==> forall i :: 0 <= i < |rows| && i != index ==> r.value[i] == rows[i]
    ensures r.Some? ==> Get(r.value[index], field) == value
    ensures r.Some? ==> forall g :: g != field ==> Get(r.value[index], g) == Get(rows[index], g)
  {
    if 0 <= index < |rows| then Some(rows[index := Set(rows[index], field, value)]) else None
  }

  /** Editing a field twice keeps only the second value, and writing back what
      a field already holds changes nothing. */
  lemma UpdateMemberLastWins(rows: seq<Row>, index: int, field: RowField, v1: string, v2: string)
    requires 0 <= index < |rows|
    ensures UpdateMember(UpdateMember(rows, index, field, v1).value, index, field, v2) == UpdateMember(rows, index, field, v2)
    ensures UpdateMember(rows, index, field, Get(rows[index], field)) == Some(rows)
  {
    var row := rows[index];
    assert Set(Set(row, field, v1), field, v2) == Set(row, field, v2) by {
      match field
      case NameField =>
      case RoleField =>
    }
    assert Set(row, field, Get(row, field)) == row by {
      match field
      case NameField =>
      case RoleField =>
    }
    assert rows[index := Set(row, field, v1)][index := Set(Set(row, field, v1), field, v2)] == rows[index := Set(row, field, v2)];
    assert rows[index := row] == rows;
  }

  /** A row becomes a member only with both a name and a role. */
  predicate Complete(row: Row) {
    row.name != "" && row.role != ""
  }

  /** The complete rows, in row order. */
  function CompleteRows(rows: seq<Row>): (r: seq<Row>)
    ensures |r| <= |rows|
    ensures forall i :: 0 <= i < |r| ==> Complete(r[i])
  {
    if |rows| == 0 then []
    else if Complete(rows[0]) then [rows[0]] + CompleteRows(rows[1..])
    else CompleteRows(rows[1..])
  }

  /** A row is kept exactly when it is one of the rows and complete. */
  lemma {:induction false} CompleteRowsExact(rows: seq<Row>)
    ensures forall row :: row in CompleteRows(rows) <==> row in rows && Complete(row)
  {
    if |rows| > 0 {
      CompleteRowsExact(rows[1..]);
      assert rows == [rows[0]] + rows[1..];
    }
  }

  /** The complete rows keep the form's order and multiplicity: a row added at
      the end is kept last exactly when it is complete. */
  lemma {:induction false} CompleteRowsSnoc(rows: seq<Row>, row: Row)
    ensures CompleteRows(rows + [row]) == CompleteRows(rows) + (if Complete(row) then [row] else [])
  {
    if |rows| == 0 {
      assert rows + [row] == [row];
    } else {
      assert (rows + [row])[1..] == rows[1..] + [row];
      CompleteRowsSnoc(rows[1..], row);
    }
  }

  /** The avatar for a member name: the 40-pixel placeholder showing its
      upper-cased first letter. */
  function Avatar(name: string): (r: string)
    ensures StartsWith(r, AvatarBase40) && EndsWith(r, UpperInitial(name))
  {
    AvatarBase40 + UpperInitial(name)
  }

  /** The member a row stands for (the id aside, which the clock decides). */
  predicate MemberOf(m: Member, row: Row) {
    m.name == row.name && m.role == row.role && m.avatar == Avatar(row.name)
  }

  /** The member `addTeamMember` creates for a row at clock value `now`. */
  function NewMember(row: Row, now: nat): Member {
    Member("member-" + NatToString(now), row.name, row.role, Avatar(row.name))
  }

  /** The members the loop creates: one per complete row, in row order. */
  function NewMembers(rows: seq<Row>, clock: nat -> nat, k: nat): (r: seq<Member>)
    ensures |r| == |CompleteRows(rows)|
    ensures forall j :: 0 <= j < |r| ==> MemberOf(r[j], CompleteRows(rows)[j])
    decreases |rows|
  {
    if |rows| == 0 then []
    else if Complete(rows[0]) then [NewMember(rows[0], clock(k))] + NewMembers(rows[1..], clock, k + 1)
    else NewMembers(rows[1..], clock, k)
  }

  /** The `members.forEach` loop: each complete row is added through
      `addTeamMember`, the k-th addition reading the clock value `clock(k)`. */
  function AddRows(st: State, rows: seq<Row>, clock: nat -> nat, k: nat): State
    decreases |rows|
  {
    if |rows| == 0 then st
    else if Complete(rows[0]) then
      AddRows(AddTeamMember(st, rows[0].name, rows[0].role, Avatar(rows[0].name), clock(k)), rows[1..], clock, k + 1)
    else AddRows(st, rows[1..], clock, k)
  }

  /** The loop appends exactly the new members to the member list and changes
      nothing else. */
  lemma {:induction false} AddRowsAppends(st: State, rows: seq<Row>, clock: nat -> nat, k: nat)
    ensures AddRows(st, rows, clock, k) == st.(teamMembers := st.teamMembers + NewMembers(rows, clock, k))
    decreases |rows|
  {
    if |rows| == 0 {
      assert st.teamMembers + [] == st.teamMembers;
    } else if Complete(rows[0]) {
      var next := AddTeamMember(st, rows[0].name, rows[0].role, Avatar(rows[0].name), clock(k));
      AddRowsAppends(next, rows[1..], clock, k + 1);
      AddOneRow(st, rows, clock, k);
    } else {
      AddRowsAppends(st, rows[1..], clock, k);
    }
  }

  /** One step of the loop on a complete row. */
  lemma AddOneRow(st: State, rows: seq<Row>, clock: nat -> nat, k: nat)
    requires |rows| > 0 && Complete(rows[0])
    ensures var next := AddTeamMember(st, rows[0].name, rows[0].role, Avatar(rows[0].name), clock(k));
      && AddRows(st, rows, clock, k) == AddRows(next, rows[1..], clock, k + 1)
      && next.(teamMembers := next.teamMembers + NewMembers(rows[1..], clock, k + 1))
         == st.(teamMembers := st.teamMembers + NewMembers(rows, clock, k))
  {
    var m := NewMember(rows[0], clock(k));
    var rest := NewMembers(rows[1..], clock, k + 1);
    assert NewMembers(rows, clock, k) == [m] + rest;
    assert st.teamMembers + [m] + rest == st.teamMembers + ([m] + rest);
  }

  /** `Math.random().toString(36)`: a "0", and after the point only the digits
      and lower-case letters of base 36. */
  predicate Base36Fraction(s: string) {
    forall i :: 2 <= i < |s| ==> IsDigit(s[i]) || 'a' <= s[i] <= 'z'
  }

  /** `HACK-` and the upper-cased characters 2 to 5 of the random string. */
  function InviteCode(random36: string): (r: string)
    ensures StartsWith(r, "HACK-") && 5 <= |r| <= 9
  {
    "HACK-" + ToUpper(Substring(random36, 2, 6))
  }

  /** For a genuine base-36 fraction the code is `HACK-` followed by at most four
      characters from 0-9 and A-Z. */
  lemma InviteCodeShape(random36: string)
    requires Base36Fraction(random36)
    ensures var code := InviteCode(random36);
      forall i :: 5 <= i < |code| ==> IsDigit(code[i]) || 'A' <= code[i] <= 'Z'
  {
    var code := InviteCode(random36);
    var mid := Substring(random36, 2, 6);
    forall i | 5 <= i < |code|
      ensures IsDigit(code[i]) || 'A' <= code[i] <= 'Z'
    {
      assert code[i] == UpperChar(mid[i - 5]);
      assert mid[i - 5] == random36[i - 3];
    }
  }

  /** The state after the name, bio and (when one was entered) the deadline of
      the form are copied in, before any member is added. */
  function Dated(f: Form, st: State, parseDate: string -> int): (r: State)
    ensures r.teamName == f.teamName && r.teamBio == f.teamBio
    ensures f.deadline == "" ==> r.deadline == st.deadline && r.hackathonEndTime == st.hackathonEndTime
    ensures f.deadline != "" ==> r.deadline == r.hackathonEndTime == Some(parseDate(f.deadline))
    ensures r.teamMembers == st.teamMembers && r.tasks == st.tasks
    ensures r.isAuthenticated == st.isAuthenticated && r.currentUser == st.currentUser
  {
    var named := st.(teamName := f.teamName, teamBio := f.teamBio);
    if f.deadline != "" then UpdateDeadline(named, Some(parseDate(f.deadline))) else named
  }

  /** `handleSubmit`: the name and bio are copied, the deadline only when one was
      entered, the members are appended (see `SubmitAddsCompleteRows`), and an
      invite code is shown. */
  function HandleSubmit(f: Form, st: State, parseDate: string -> int, clock: nat -> nat, random36: string): (r: (Form, State))
    ensures r.1.teamName == f.teamName && r.1.teamBio == f.teamBio
    ensures f.deadline == "" ==> r.1.deadline == st.deadline && r.1.hackathonEndTime == st.hackathonEndTime
    ensures f.deadline != "" ==> r.1.deadline == r.1.hackathonEndTime == Some(parseDate(f.deadline))
    ensures r.1.tasks == st.tasks && r.1.isAuthenticated == st.isAuthenticated && r.1.currentUser == st.currentUser
    ensures r.0 == f.(inviteCode := InviteCode(random36), success := true)
  {
    var dated := Dated(f, st, parseDate);
    AddRowsAppends(dated, f.members, clock, 0);
    (f.(inviteCode := InviteCode(random36), success := true), AddRows(dated, f.members, clock, 0))
  }

  /** Submitting keeps the members already listed and appends one member per
      complete row, in row order. */
  lemma SubmitAddsCompleteRows(f: Form, st: State, parseDate: string -> int, clock: nat -> nat, random36: string)
    ensures var ms := HandleSubmit(f, st, parseDate, clock, random36).1.teamMembers;
      && |ms| == |st.teamMembers| + |CompleteRows(f.members)|
      && ms[..|st.teamMembers|] == st.teamMembers
      && forall j :: 0 <= j < |CompleteRows(f.members)| ==> MemberOf(ms[|st.teamMembers| + j], CompleteRows(f.members)[j])
  {
    var dated := Dated(f, st, parseDate);
    AddRowsAppends(dated, f.members, clock, 0);
    var added := NewMembers(f.members, clock, 0);
    var ms := HandleSubmit(f, st, parseDate, clock, random36).1.teamMembers;
    assert ms == st.teamMembers + added;
    assert ms[..|st.teamMembers|] == st.teamMembers;
    forall j | 0 <= j < |added|
      ensures ms[|st.teamMembers| + j] == added[j]
    {
    }
  }

  /** Submitting the untouched form adds nobody: its only row is blank. */
  lemma InitialFormAddsNoMembers(st: State, parseDate: string -> int, clock: nat -> nat, random36: string)
    ensures HandleSubmit(InitialForm, st, parseDate, clock, random36).1.teamMembers == st.teamMembers
  {
    SubmitAddsCompleteRows(InitialForm, st, parseDate, clock, random36);
    assert CompleteRows(InitialForm.members) == [];
  }
}

=== FILE: text.dfy ===
/** String helpers shared by the Python services and the JavaScript code:
    whitespace stripping (`str.strip()` / `String.prototype.trim()`), ASCII
    case mapping, `join`, `split` on one character, prefix tests and decimal
    rendering of non-negative integers. */
module Text {

  import opened Basics

  // ---------------------------------------------------------------------
  // Whitespace and stripping
  // ---------------------------------------------------------------------

  /** Whose whitespace `strip` removes. JavaScript's `trim` and Python's
      `str.strip()` agree on the six ASCII blanks; Python also counts the four
      information separators U+001C..U+001F as whitespace, JavaScript does not. */
  datatype Dialect = JavaScript | Python

  /** ASCII whitespace in dialect `d`: space, tab, line feed, vertical tab, form
      feed, carriage return, and for Python also U+001C..U+001F. */
  predicate IsSpace(d: Dialect, c: char) {
    || c == ' ' || c == '\t' || c == '\n' || c == '\r' || c == '\U{000B}' || c == '\U{000C}'
    || (d == Python && '\U{001C}' <= c <= '\U{001F}')
  }

  predicate AllSpace(d: Dialect, s: string) {
    forall i :: 0 <= i < |s| ==> IsSpace(d, s[i])
  }

  /** How many whitespace characters `strip()` removes from the front of `s`. */
  function LeadingSpaces(d: Dialect, s: string): (n: nat)
    ensures n <= |s|
    ensures forall i :: 0 <= i < n ==> IsSpace(d, s[i])
    ensures n == |s| || !IsSpace(d, s[n])
  {
    SpacesFrom(d, s, 0)
  }

  /** The first index from `k` on that holds no whitespace, or `|s|`. */
  function SpacesFrom(d: Dialect, s: string, k: nat): (n: nat)
    requires k <= |s|
    ensures k <= n <= |s|
    ensures forall i :: k <= i < n ==> IsSpace(d, s[i])
    ensures n == |s| || !IsSpace(d, s[n])
    decreases |s| - k
  {
    if k < |s| && IsSpace(d, s[k]) then SpacesFrom(d, s, k + 1) else k
  }

  /** The end of what `strip()` keeps of `s[lo..hi]`: trailing whitespace is dropped. */
  function KeptEnd(d: Dialect, s: string, lo: nat, hi: nat): (e: nat)
    requires lo <= hi <= |s|
    ensures lo <= e <= hi
    ensures forall i :: e <= i < hi ==> IsSpace(d, s[i])
    ensures e == lo || !IsSpace(d, s[e - 1])
    decreases hi
  {
    if hi > lo && IsSpace(d, s[hi - 1]) then KeptEnd(d, s, lo, hi - 1) else hi
  }

  /** `str.strip()` (`d == Python`) / `trim()` (`d == JavaScript`): a contiguous
      slice of `s` with no whitespace at either end, everything outside the
      slice being whitespace. */
  function Strip(d: Dialect, s: string): (r: string)
    ensures LeadingSpaces(d, s) + |r| <= |s|
    ensures r == s[LeadingSpaces(d, s)..LeadingSpaces(d, s) + |r|]
    ensures AllSpace(d, s[..LeadingSpaces(d, s)]) && AllSpace(d, s[LeadingSpaces(d, s) + |r|..])
    ensures r == [] || (!IsSpace(d, r[0]) && !IsSpace(d, r[|r| - 1]))
  {
    var n := LeadingSpaces(d, s);
    s[n..KeptEnd(d, s, n, |s|)]
  }

  /** No whitespace at either end: what `strip()` produces. */
  predicate Trimmed(d: Dialect, s: string) {
    s == [] || (!IsSpace(d, s[0]) && !IsSpace(d, s[|s| - 1]))
  }

  /** Stripping yields a trimmed string, and a trimmed string is its own strip. */
  lemma StripTrimmed(d: Dialect, s: string)
    ensures Trimmed(d, Strip(d, s))
    ensures Trimmed(d, s) ==> Strip(d, s) == s
  {
    if s != [] && Trimmed(d, s) {
      TrimmedIsFixed(d, s);
    }
  }

  lemma TrimmedIsFixed(d: Dialect, s: string)
    requires s != [] && !IsSpace(d, s[0]) && !IsSpace(d, s[|s| - 1])
    ensures Strip(d, s) == s
  {
    assert LeadingSpaces(d, s) == 0;
    assert KeptEnd(d, s, 0, |s|) == |s|;
  }

  /** A string strips to nothing exactly when it is all whitespace. */
  lemma {:induction false} StripEmptyIff(d: Dialect, s: string)
    ensures Strip(d, s) == [] <==> AllSpace(d, s)
  {
    var k := LeadingSpaces(d, s);
    if Strip(d, s) == [] {
      forall i | 0 <= i < |s|
        ensures IsSpace(d, s[i])
      {
        assert s[..k][i] == s[i];
      }
    }
  }

  /** Stripping twice is stripping once. */
  lemma StripIdempotent(d: Dialect, s: string)
    ensures Strip(d, Strip(d, s)) == Strip(d, s)
  {
    var r := Strip(d, s);
    if r != [] {
      TrimmedIsFixed(d, r);
    }
  }

  /** The two dialects differ exactly on the information separators: what
      `trim()` removes `strip()` removes too, and a lone U+001C..U+001F strips
      to nothing in Python but survives `trim()`. */
  lemma {:induction false} DialectsDiffer(c: char)
    ensures IsSpace(JavaScript, c) ==> IsSpace(Python, c)
    ensures IsSpace(Python, c) && !IsSpace(JavaScript, c) <==> '\U{001C}' <= c <= '\U{001F}'
    ensures '\U{001C}' <= c <= '\U{001F}' ==> Strip(Python, [c]) == [] && Strip(JavaScript, [c]) == [c]
  {
    if '\U{001C}' <= c <= '\U{001F}' {
      StripEmptyIff(Python, [c]);
      TrimmedIsFixed(JavaScript, [c]);
    }
  }

  // ---------------------------------------------------------------------
  // ASCII case mapping
  // ---------------------------------------------------------------------

  function UpperChar(c: char): (r: char)
    ensures 'a' <= c <= 'z' ==> 'A' <= r <= 'Z'
    ensures !('a' <= c <= 'z') ==> r == c
  {
    if 'a' <= c <= 'z' then (c as int - 32) as char else c
  }

  function LowerChar(c: char): (r: char)
    ensures 'A' <= c <= 'Z' ==> 'a' <= r <= 'z'
    ensures !('A' <= c <= 'Z') ==> r == c
  {
    if 'A' <= c <= 'Z' then (c as int + 32) as char else c
  }

  /** `toUpperCase()` restricted to ASCII: same length, every letter mapped. */
  function ToUpper(s: string): (r: string)
    ensures |r| == |s|
    ensures forall i :: 0 <= i < |s| ==> r[i] == UpperChar(s[i])
  {
    seq(|s|, i requires 0 <= i < |s| => UpperChar(s[i]))
  }

  /** `toLowerCase()` restricted to ASCII: same length, every letter mapped. */
  function ToLower(s: string): (r: string)
    ensures |r| == |s|
    ensures forall i :: 0 <= i < |s| ==> r[i] == LowerChar(s[i])
  {
    seq(|s|, i requires 0 <= i < |s| => LowerChar(s[i]))
  }

  /** `s.charAt(0).toUpperCase()`: empty for the empty string. */
  function UpperInitial(s: string): (r: string)
    ensures s == [] <==> r == []
    ensures s != [] ==> r == [UpperChar(s[0])]
  {
    if s == [] then [] else [UpperChar(s[0])]
  }

  /** Lower-casing does not create whitespace, so it commutes with stripping. */
  lemma LowerKeepsSpace(d: Dialect, c: char)
    ensures IsSpace(d, LowerChar(c)) <==> IsSpace(d, c)
  {
  }

  /** No upper-case ASCII letters remain. */
  predicate IsLowered(s: string) {
    forall i :: 0 <= i < |s| ==> !('A' <= s[i] <= 'Z')
  }

  lemma ToLowerIsLowered(s: string)
    ensures IsLowered(ToLower(s))
    ensures ToLower(ToLower(s)) == ToLower(s)
  {
  }

  // ---------------------------------------------------------------------
  // Prefixes and substrings
  // ---------------------------------------------------------------------

  predicate StartsWith(s: string, prefix: string) {
    |prefix| <= |s| && s[..|prefix|] == prefix
  }

  predicate EndsWith(s: string, suffix: string) {
    |suffix| <= |s| && s[|s| - |suffix|..] == suffix
  }

  /** JavaScript `s.substring(a, b)` for non-negative `a <= b`: both ends clamped to the length. */
  function Substring(s: string, a: nat, b: nat): (r: string)
    requires a <= b
    ensures |r| <= b - a
    ensures a <= |s| ==> r == s[a..if b <= |s| then b else |s|]
    ensures a > |s| ==> r == []
  {
    var lo := if a <= |s| then a else |s|;
    var hi := if b <= |s| then b else |s|;
    s[lo..hi]
  }

  // ---------------------------------------------------------------------
  // join and split
  // ---------------------------------------------------------------------

  /** Python `sep.join(parts)` / JavaScript `parts.join(sep)`. */
  function Join(parts: seq<string>, sep: string): string {
    if |parts| == 0 then ""
    else if |parts| == 1 then parts[0]
    else parts[0] + sep + Join(parts[1..], sep)
  }

  function TotalLength(parts: seq<string>): nat {
    if |parts| == 0 then 0 else |parts[0]| + TotalLength(parts[1..])
  }

  /** A join of `n >= 1` parts has the parts' lengths plus `n - 1` separators. */
  lemma {:induction false} JoinLength(parts: seq<string>, sep: string)
    requires |parts| >= 1
    ensures |Join(parts, sep)| == TotalLength(parts) + |sep| * (|parts| - 1)
  {
    if |parts| > 1 {
      JoinLength(parts[1..], sep);
    }
  }

  /** Joining one more part appends a separator and the part. */
  lemma {:induction false} JoinSnoc(parts: seq<string>, last: string, sep: string)
    requires |parts| >= 1
    ensures Join(parts + [last], sep) == Join(parts, sep) + sep + last
  {
    if |parts| == 1 {
      assert (parts + [last])[1..] == [last];
    } else {
      assert (parts + [last])[1..] == parts[1..] + [last];
      JoinSnoc(parts[1..], last, sep);
    }
  }

  /** JavaScript `s.split(c)`: the fields between single occurrences of `c`;
      there is always at least one field and no field contains `c`. */
  function Split(s: string, c: char): (r: seq<string>)
    ensures |r| >= 1
    ensures forall i :: 0 <= i < |r| ==> c !in r[i]
  {
    if |s| == 0 then [""]
    else
      var rest := Split(s[1..], c);
      if s[0] == c then [""] + rest
      else [[s[0]] + rest[0]] + rest[1..]
  }

  /** Joining the fields of a split with the separator gives back the string. */
  lemma {:induction false} JoinSplit(s: string, c: char)
    ensures Join(Split(s, c), [c]) == s
  {
    if |s| > 0 {
      var rest := Split(s[1..], c);
      JoinSplit(s[1..], c);
      if s[0] == c {
        assert Split(s, c)[1..] == rest;
      } else {
        var r := Split(s, c);
        if |rest| == 1 {
          assert r == [[s[0]] + rest[0]];
        } else {
          assert r[1..] == rest[1..];
          assert Join(rest, [c]) == rest[0] + [c] + Join(rest[1..], [c]);
        }
      }
    }
  }

  /** Splitting a join of separator-free fields gives back the fields. */
  lemma {:induction false} SplitJoin(fields: seq<string>, c: char)
    requires |fields| >= 1
    requires forall i :: 0 <= i < |fields| ==> c !in fields[i]
    ensures Split(Join(fields, [c]), c) == fields
  {
    if |fields| == 1 {
      SplitFieldFree(fields[0], c);
    } else {
      var rest := Join(fields[1..], [c]);
      assert Join(fields, [c]) == fields[0] + [c] + rest;
      SplitJoin(fields[1..], c);
      SplitPrefix(fields[0], rest, c);
      assert fields == [fields[0]] + fields[1..];
    }
  }

  /** A string without the separator is a single field. */
  lemma {:induction false} SplitFieldFree(f: string, c: char)
    requires c !in f
    ensures Split(f, c) == [f]
  {
    if |f| > 0 {
      SplitFieldFree(f[1..], c);
      assert [f[0]] + f[1..] == f;
    }
  }

  /** Splitting `f + [c] + t` with `f` separator-free starts a new field after `f`. */
  lemma {:induction false} SplitPrefix(f: string, t: string, c: char)
    requires c !in f
    ensures Split(f + [c] + t, c) == [f] + Split(t, c)
    decreases |f|
  {
    if |f| == 0 {
      assert ([] + [c] + t)[1..] == t;
    } else {
      assert (f + [c] + t)[1..] == f[1..] + [c] + t;
      SplitPrefix(f[1..], t, c);
      assert [f[0]] + f[1..] == f;
    }
  }

  /** The field at position `i` of `s.split(c)`, if there is one (JavaScript yields `undefined` otherwise). */
  function Field(s: string, c: char, i: nat): (r: Option<string>)
    ensures r.Some? <==> i < |Split(s, c)|
    ensures r.Some? ==> r.value == Split(s, c)[i]
  {
    var fs := Split(s, c);
    if i < |fs| then Some(fs[i]) else None
  }

  // ---------------------------------------------------------------------
  // Decimal rendering
  // ---------------------------------------------------------------------

  predicate IsDigit(c: char) {
    '0' <= c <= '9'
  }

  function DigitChar(d: nat): (c: char)
    requires d < 10
    ensures IsDigit(c)
  {
    ('0' as int + d) as char
  }

  function DigitValue(c: char): (d: nat)
    requires IsDigit(c)
    ensures d < 10
  {
    c as int - '0' as int
  }

  /** `String(n)` for a non-negative integer: decimal digits, no leading zero. */
  function NatToString(n: nat): (r: string)
    ensures |r| >= 1
    ensures forall i :: 0 <= i < |r| ==> IsDigit(r[i])
    ensures |r| > 1 ==> r[0] != '0'
  {
    if n < 10 then [DigitChar(n)] else NatToString(n / 10) + [DigitChar(n % 10)]
  }

  /** The value of a string of decimal digits. */
  function DecimalValue(s: string): nat
    requires forall i :: 0 <= i < |s| ==> IsDigit(s[i])
  {
    if |s| == 0 then 0 else 10 * DecimalValue(s[..|s| - 1]) + DigitValue(s[|s| - 1])
  }

  /** Reading back the decimal rendering gives the number. */
  lemma {:induction false} DecimalRoundTrip(n: nat)
    ensures DecimalValue(NatToString(n)) == n
  {
    if n >= 10 {
      var s := NatToString(n);
      assert s[..|s| - 1] == NatToString(n / 10);
      DecimalRoundTrip(n / 10);
    }
  }

  /** A numeral followed by a non-digit is read off unambiguously: equal texts
      that each start with a numeral and continue with a non-digit have the
      same number and the same continuation. */
  lemma NumeralPrefixUnique(a: nat, b: nat, s: string, t: string)
    requires NatToString(a) + s == NatToString(b) + t
    requires s != [] && !IsDigit(s[0]) && t != [] && !IsDigit(t[0])
    ensures a == b && s == t
  {
    var x, y := NatToString(a), NatToString(b);
    NumeralNoLonger(x, s, y, t);
    NumeralNoLonger(y, t, x, s);
    assert x == (x + s)[..|x|];
    assert y == (y + t)[..|y|];
    DecimalRoundTrip(a);
    DecimalRoundTrip(b);
    assert s == (x + s)[|x|..];
    assert t == (y + t)[|y|..];
  }

  /** Two digit runs each followed by a non-digit in the same text end at the same place. */
  lemma NumeralNoLonger(x: string, s: string, y: string, t: string)
    requires x + s == y + t
    requires forall i :: 0 <= i < |x| ==> IsDigit(x[i])
    requires forall i :: 0 <= i < |y| ==> IsDigit(y[i])
    requires s != [] && !IsDigit(s[0]) && t != [] && !IsDigit(t[0])
    ensures |y| <= |x|
  {
    assert (x + s)[|x|] == s[0];
  }

  /** `String(n)` for any integer: a minus sign before the magnitude's digits. */
  function IntToString(i: int): (r: string)
    ensures i >= 0 ==> r == NatToString(i)
    ensures i < 0 ==> r == "-" + NatToString(-i)
  {
    if i >= 0 then NatToString(i) else "-" + NatToString(-i)
  }
}
